=== FILE: README.md ===
# V2bX panel transport and WebSocket multiplexer — a Dafny model

This project models five pieces of decision logic in the V2bX node agent:

- **Shared-port route multiplexer** (`core/sing/ws_mux.go`). A manager keeps one listener per
  (listen address, port). Each listener has a table from (host, path) to a backend and tag, and
  each tag has a binding back to its route. `Ensure`, `Register`, `Unregister` and `CloseAll` are
  transitions on these maps. The model also covers:
  - the lookup in specificity order of an accepted connection;
  - host and path normalisation;
  - the framing of the first HTTP header block, which must end in CR LF CR LF within 64 KiB.
- **Panel channel breaker and failover** (`api/panel/ws_transport.go`):
  - the Unknown / Available / Unavailable state machine, with a 60-second cooldown;
  - the channel request, retried once with a reconnect;
  - the choice between the channel and the HTTP fallback, which takes GET and POST only;
  - the response check;
  - the derivation of the channel endpoint.
- **Client construction** (`api/panel/panel.go`):
  - the node-type allow-list, with the alias `v2ray` → `vmess`;
  - the default timeout;
  - the identity query parameters;
  - `disableWS`.
- **Panel call results** (`api/panel/user.go`). This covers how each call turns (status, headers,
  body, error) into its result:
  - 304 as "unchanged";
  - ETag caching;
  - the alive list that swallows every failure;
  - the traffic map, where a later entry for a user wins.
- **Node start** (`node/node.go`):
  - the capped doubling retry delay (10, 20, 40, 60, 60 … seconds);
  - the controller start loop;
  - the reported channel mode and endpoint;
  - skipping nodes whose client fails to construct.

Every operation is a pure function over immutable datatypes. The exception is the controller
start loop, which is a method with a loop. Time, network outcomes, `url.Parse`,
`http.ReadRequest` and JSON decoding are all explicit inputs:
- times are nanoseconds of Unix time;
- `TryEnv` and `HttpOutcome` describe what the network did;
- `UrlParser`, `RequestParser` and the `decode` and `encode` functions stand for the library calls.

Modules, in dependency order:
- `Base`: Option and Result.
- `Strings`: ASCII case mapping, searching, and decimal text.
- `Net`: `SplitHostPort`, `JoinHostPort` and header-name canonicalisation.
- `WsMux`.
- `ChannelBreaker`.
- `Panel`.
- `WsTransport`.
- `PanelUser`.
- `NodeStart`.

## Model

| member | source | states |
|---|---|---|
| `Strings.ToLower` | api/panel/panel.go:61 | each upper-case ASCII letter becomes its lower-case letter, in place; every other character is kept |
| `Strings.Contains` | core/sing/ws_mux.go:253 | true exactly when the pattern occurs at some position |
| `Strings.TrimRight` | api/panel/ws_transport.go:112 | the result is a prefix that does not end in the cut character, and everything dropped is that character |
| `Strings.ItoaRoundTrip` | api/panel/panel.go:80 | parsing the decimal text of any integer gives the integer back |
| `Strings.ParseNatToString` | api/panel/panel.go:80 | parsing the digits of a natural number gives the number back |
| `Net.SplitHostPort` | core/sing/ws_mux.go:275 | a successful split needs a colon and yields a port free of colons and brackets |
| `Net.SplitJoinHostPort` | core/sing/ws_mux.go:274-277 | splitting undoes joining for bracket-free hosts and ports |
| `Net.SplitBracketed` | core/sing/ws_mux.go:275 | "[host]:port" with no stray brackets splits into the bracketed host and the port after the colon |
| `Net.HeaderMapValues` | api/panel/ws_transport.go:248 | a reply header map holds a key exactly when some received name canonicalises to it, with that key's values in arrival order |
| `Net.HeaderMapHasNoETag` | api/panel/ws_transport.go:248 | a header map built from received lines never has the key "ETag" |
| `Net.NoCanonicalETag` | api/panel/ws_transport.go:248 | no header name canonicalises to "ETag", because the letter after the first is always lower-cased |
| `WsMux.NewManager` | core/sing/ws_mux.go:55-60 | a new manager has no servers and no tags, and satisfies the registry invariant |
| `WsMux.Ensure` | core/sing/ws_mux.go:77-100 | an existing key returns its server and changes nothing; a failed listen changes nothing; otherwise exactly one server with an empty route table is added |
| `WsMux.EnsureIdempotent` | core/sing/ws_mux.go:81-84 | a second Ensure on the same key returns the same server and state |
| `WsMux.EnsureKeepsValid` | core/sing/ws_mux.go:77-100 | Ensure keeps every tag bound to a live route, and a new listener gets a serial no live one has |
| `WsMux.Bind` | core/sing/ws_mux.go:109-124 | a missing server or an existing exact key is an error that changes nothing; otherwise exactly one route is added and the tag is bound to it, and nothing else changes |
| `WsMux.Register` | core/sing/ws_mux.go:102-127 | a missing server is an error; with the server present, registration succeeds exactly when the key (normalised host, path with "" stored as "/") is free, and otherwise the conflict names the tag holding it; success adds that one route and binds the tag to it, leaving every other server, tag and the serial counter unchanged; an error leaves the manager unchanged |
| `WsMux.RegisterNormalized` | core/sing/ws_mux.go:102-127 | the same contract as `Register`, with the path normalised as connections are: missing server, success exactly when the normalised key is free, the conflict naming the holder, and one route and tag binding added with nothing else changed |
| `WsMux.ConflictKeepsPriorRoute` | core/sing/ws_mux.go:114-120 | a conflicting registration names the tag already holding the key, and that route still answers lookups |
| `WsMux.BindKeepsValid` | core/sing/ws_mux.go:114-124 | registration keeps every tag bound to a live route carrying that tag |
| `WsMux.Unregister` | core/sing/ws_mux.go:129-156 | an unknown tag is a no-op; otherwise the tag and its route are removed, and the server is removed when no route is left |
| `WsMux.UnregisterKeepsValid` | core/sing/ws_mux.go:129-156 | unregistration keeps every remaining tag bound to a live route |
| `WsMux.RegisterThenUnregister` | core/sing/ws_mux.go:102-156 | registering a fresh tag and unregistering it restores the tags and servers, stopping a server that was empty before |
| `WsMux.BindThenUnregister` | core/sing/ws_mux.go:121-151 | binding a fresh route and unbinding it restores the tags and servers |
| `WsMux.ReopenAfterLastRoute` | core/sing/ws_mux.go:149-155 | after its last route goes, ensuring the key again opens a new listener with an empty table |
| `WsMux.CloseAll` | core/sing/ws_mux.go:62-75 | every server is stopped and both maps end empty |
| `WsMux.NormalizeHost` | core/sing/ws_mux.go:270-280 | "" stays ""; a host that splits as host:port becomes its lower-cased host part; any other host, including one with a colon that does not split, is only lower-cased |
| `WsMux.NormalizeHostStripsPort` | core/sing/ws_mux.go:274-277 | host:port normalises to the lower-cased host; a colon-free host is only lower-cased |
| `WsMux.NormalizeHostKeepsBareIPv6` | core/sing/ws_mux.go:274-279 | "[::1]" does not split, so it normalises to itself, brackets included |
| `WsMux.NormalizePath` | core/sing/ws_mux.go:282-290 | "" becomes "/"; the result is "*" or starts with "/" and ends with the input |
| `WsMux.NormalizePathFixedPoints` | core/sing/ws_mux.go:282-290 | a path is left unchanged exactly when it is "*" or starts with "/"; normalisation is idempotent |
| `WsMux.FirstMatchIsEarliest` | core/sing/ws_mux.go:203-213 | the first match is the earliest listed key present, and there is none when no key is present |
| `WsMux.Lookup` | core/sing/ws_mux.go:203-213 | the lookup returns the first hit of exact, (*, path), (host, *), (*, *) |
| `WsMux.SpecificityExample` | core/sing/ws_mux.go:203-213 | with all four kinds of route present, each request reaches the most specific one covering it |
| `WsMux.RegisterNormalizedIsReachable` | core/sing/ws_mux.go:200-213 | a route registered with a normalised path is the exact match of a request for that host and path |
| `WsMux.RegisterUnnormalizedUnreachable` | core/sing/ws_mux.go:103-114 | a route registered with path "ws" is never matched by any request path |
| `WsMux.NextLineEnd` | core/sing/ws_mux.go:245 | finds one past the first LF from a position, or reports that there is none |
| `WsMux.FrameFrom` | core/sing/ws_mux.go:243-256 | a framed header is a prefix of the stream of at most 64 KiB |
| `WsMux.LineHoldsHeaderEnd` | core/sing/ws_mux.go:249-255 | after appending a line, the buffer holds CR LF CR LF exactly when one ends at the line's end |
| `WsMux.HeaderEndsWithLF` | core/sing/ws_mux.go:245-255 | every CR LF CR LF ends in LF, so a header end can only complete at the end of a line read |
| `WsMux.SpecAtEndOfStream` | core/sing/ws_mux.go:245-248 | a stream that stops before the next line ends is a read error |
| `WsMux.SpecPastLimit` | core/sing/ws_mux.go:250-252 | a line that takes the buffer past 64 KiB before any header end is "too large" |
| `WsMux.SpecFramed` | core/sing/ws_mux.go:253-255 | a line that completes the first header end within 64 KiB ends the header there |
| `WsMux.FrameFromMeetsSpec` | core/sing/ws_mux.go:243-256 | the read loop frames every stream as the one-line framing statement says |
| `WsMux.FrameHeaderMeetsSpec` | core/sing/ws_mux.go:242-256 | the raw header is the stream up to its first CR LF CR LF when that ends within 64 KiB; otherwise "too large" or a read error, as the stream decides |
| `WsMux.ReadHTTPHeader` | core/sing/ws_mux.go:242-268 | the header is the framed block byte for byte, with the parsed host, and an empty path reported as "/" |
| `WsMux.HandleConn` | core/sing/ws_mux.go:189-225 | a connection is forwarded exactly when its header parses and some route matches; the backend first receives the raw header, then the rest of the stream |
| `ChannelBreaker.Enabled` | api/panel/ws_transport.go:74-89 | not Unavailable means enabled; Unavailable with no failure time means disabled, unchanged; otherwise enabled exactly from 60 s after the failure, and then the state is reset to Unknown with the stamp kept |
| `ChannelBreaker.SetState` | api/panel/ws_transport.go:91-96 | the state is set; the failure time is stamped only for Unavailable |
| `ChannelBreaker.CooldownAfterFailure` | api/panel/ws_transport.go:84-96 | after a failure at t, the channel is offered exactly from t + 60 s, as Unknown |
| `ChannelBreaker.EnabledIdempotent` | api/panel/ws_transport.go:74-89 | asking twice at the same time gives the same answer and state |
| `ChannelBreaker.AvailableStaysEnabled` | api/panel/ws_transport.go:91-96 | after a success the channel is offered at every time, and the last failure time is kept |
| `Panel.NormalizeNodeType` | api/panel/panel.go:61-64 | "v2ray" in any case becomes "vmess"; any other type is its lower-cased self; the result is "vmess" exactly for "v2ray" or "vmess" in any case |
| `Panel.TimeoutNs` | api/panel/panel.go:43-50 | a positive timeout is that many seconds; otherwise 5 s |
| `Panel.QueryParams` | api/panel/panel.go:78-82 | exactly node_type, node_id and token, with node_id parsing back to the node id |
| `Panel.New` | api/panel/panel.go:40-102 | construction succeeds exactly for an allowed normalised type, and otherwise fails naming the lower-cased type; the client has the default timeout, identity parameters, an Unknown breaker and no cached validator; the config's type is rewritten |
| `Panel.NewIgnoresCase` | api/panel/panel.go:61-76 | node types differing only in case construct the same client |
| `Panel.NewRewriteIsStable` | api/panel/panel.go:61-64 | constructing from the rewritten config gives the same result |
| `Panel.DisableWS` | api/panel/panel.go:104-109 | the channel becomes Unavailable and disconnected, the failure time is kept, and nothing else changes |
| `Panel.DisabledForGood` | api/panel/panel.go:104-108 | a disabled client with no failure on record is refused the channel at every time |
| `WsTransport.ToWsRequest` | api/panel/ws_transport.go:151-159 | the channel request carries the method, path and body, and each header as a one-element list |
| `WsTransport.ChannelScheme` | api/panel/ws_transport.go:123-129 | a configured scheme wins; otherwise "wss" exactly for an https API host, else "ws" |
| `WsTransport.ChannelPort` | api/panel/ws_transport.go:134-137 | a positive configured port wins; otherwise 51821 |
| `WsTransport.ChannelHost` | api/panel/ws_transport.go:130-133 | a configured host wins; otherwise the API host's name |
| `WsTransport.JoinPath` | api/panel/ws_transport.go:111-113 | under a non-root base path, the request path follows a prefix of the base that does not end in '/', and every base character dropped is '/' |
| `WsTransport.WsURL` | api/panel/ws_transport.go:98-148 | the override URL's scheme and host with the joined path, or the derived scheme and host:port; parse errors and an empty host name are errors; the query is the identity parameters |
| `WsTransport.DefaultEndpointSplits` | api/panel/ws_transport.go:119-139 | with no overrides and an API host name without a colon, the endpoint host splits into the API host name and "51821", and the scheme is wss exactly for https |
| `WsTransport.IPv6ApiHostDoesNotSplit` | api/panel/ws_transport.go:139 | as written, the API host "[::1]" gives the endpoint host "::1:51821", which does not split into host and port |
| `WsTransport.UnbracketedIPv6DoesNotSplit` | api/panel/ws_transport.go:139 | "::1:51821" is rejected by host:port splitting |
| `WsTransport.WsURLJoined` | api/panel/ws_transport.go:98-148 | the endpoint of `wsURL` with the default host and port joined as `net.JoinHostPort` joins them; everything else is unchanged |
| `WsTransport.JoinedEndpointSplits` | api/panel/ws_transport.go:119-139 | with the host joined, the default endpoint splits back into the API host name and "51821" for every bracket-free host name, IPv6 literals included |
| `WsTransport.TryOnce` | api/panel/ws_transport.go:169-191 | an attempt dials only without a connection; it fails with the URL, dial or write error of the step that failed, and otherwise returns what the read returned; it is connected afterwards exactly when it got a reply |
| `WsTransport.DoWS` | api/panel/ws_transport.go:150-207 | one or two attempts, the second only after a failed first and on a fresh connection; every write is the same request; the call succeeds exactly when the payload read decodes, returning the decoded reply; otherwise it fails with the second attempt's error, or with "invalid channel reply" with the connection left open |
| `WsTransport.Decoded` | api/panel/ws_transport.go:202-206 | an undecodable reply is an error that keeps the connection |
| `WsTransport.OpenConnectionReused` | api/panel/ws_transport.go:47-50 | an open connection that works is reused, with no dial |
| `WsTransport.RetryReconnects` | api/panel/ws_transport.go:193-200 | after a failed write the retry dials again and resends the same request |
| `WsTransport.Fallback` | api/panel/ws_transport.go:225-248 | only GET or POST, in any case, is sent; another method fails with "unsupported method: " and the method, with status 0; an HTTP reply yields its status, canonical headers and body; a transport error or a nil response is returned as the error |
| `WsTransport.DoRequest` | api/panel/ws_transport.go:209-249 | the channel is tried exactly when the breaker allows; a channel reply is returned with its status, headers and body, with usedWS set and the channel Available; a channel failure stamps Unavailable and falls back, where an HTTP reply is returned with its status, canonical headers and body; nothing else in the client changes |
| `WsTransport.FallbackHeadersCanonical` | api/panel/ws_transport.go:248 | headers of a reply over HTTP never include the key "ETag" |
| `WsTransport.FailureCoolsDown` | api/panel/ws_transport.go:210-223 | after a channel failure, requests within 60 s skip the channel and leave the client as it is; later ones retry it |
| `WsTransport.MalformedReplyKeepsConnection` | api/panel/ws_transport.go:217-222 | an undecodable channel reply marks the channel Unavailable but keeps the connection |
| `WsTransport.CheckResponseRaw` | api/panel/ws_transport.go:251-259 | an error exactly on a transport error or a status of 400 or more |
| `WsTransport.UnsupportedMethodFails` | api/panel/ws_transport.go:234-241 | an unsupported method fails the response check with its message |
| `WsTransport.RunCalls` | api/panel/ws_transport.go:209-249 | a sequence of requests yields one exchange per request |
| `WsTransport.DisabledChannelNeverTried` | api/panel/ws_transport.go:74-82 | an Unavailable channel with no failure time is never tried again, over any sequence of requests |
| `WsTransport.DisabledStep` | api/panel/ws_transport.go:74-82 | one request on a channel switched off with no failure time goes over HTTP and leaves the client unchanged |
| `WsTransport.DisableWSIsPermanent` | api/panel/panel.go:104-108 | after disableWS with no failure on record, every later request goes over HTTP |
| `PanelUser.UserListHeaders` | api/panel/user.go:31-34 | the pull sends the cached validator as If-None-Match and accepts JSON |
| `PanelUser.ETagAsWritten` | api/panel/user.go:45-49 | the validator is the first value filed under the exact key "ETag", and there is none without one |
| `PanelUser.ETagOf` | api/panel/user.go:45-49 | the validator is read under "ETag", else under its canonical name "Etag" |
| `PanelUser.HandleUserList` | api/panel/user.go:35-50 | 304 is "no list" before any check; a failed check or an undecodable body is an error; a decoded body gives its users, or "no list" when its users field is null or absent; any decoded reply carrying a validator replaces the cached one |
| `PanelUser.MissingListLooksNotModified` | api/panel/user.go:35-50 | a decoded reply without a users list gives the caller the same result as a 304 |
| `PanelUser.GetUserListAsWritten` | api/panel/user.go:29-51 | the pull as written: the transport result handled with the exact-key validator |
| `PanelUser.GetUserList` | api/panel/user.go:29-51 | the pull with the validator read under either name |
| `PanelUser.PullSendsCachedETag` | api/panel/user.go:31-34 | every request of a pull, over either transport, carries the cached validator |
| `PanelUser.NotModifiedKeepsETag` | api/panel/user.go:35-37 | a 304 reports no change and keeps the cached validator |
| `PanelUser.AsWrittenIgnoresHttpETag` | api/panel/user.go:45-49 | as written, a pull answered over HTTP never changes the cached validator |
| `PanelUser.AsWrittenCachesChannelETag` | api/panel/user.go:35-49 | as written, a decoded channel reply that carries "ETag" does replace the cached validator, so only HTTP replies lose it |
| `PanelUser.CanonicalETag` | api/panel/user.go:46 | "ETag" canonicalises to "Etag" |
| `PanelUser.HttpETagCached` | api/panel/user.go:45-49 | reading either name, a decoded HTTP reply caches the first value received under any spelling of ETag |
| `PanelUser.ETagExample` | api/panel/user.go:45-49 | for an HTTP 200 with "ETag: v1", the source keeps "" while the corrected pull caches "v1" |
| `PanelUser.ETagExampleExchange` | api/panel/ws_transport.go:209-249 | with the channel off, the pull's HTTP reply with the line "ETag: v1" arrives with that header filed under "Etag" |
| `PanelUser.HandleAlive` | api/panel/user.go:60-68 | a transport error, status 399 or more, or an undecodable body gives the empty map; otherwise the decoded map |
| `PanelUser.GetUserAlive` | api/panel/user.go:54-69 | the alive call never fails and returns the handled map |
| `PanelUser.Alive399IsEmpty` | api/panel/user.go:60-63 | status 399 passes the general check but still gives the empty alive map |
| `PanelUser.TrafficMap` | api/panel/user.go:79-82 | the map's users are exactly the reported users |
| `PanelUser.TrafficMapLastWins` | api/panel/user.go:80-82 | each user's entry is the [upload, download] of their last report |
| `PanelUser.ReportUserTraffic` | api/panel/user.go:78-97 | the traffic map is posted, and the report fails exactly on a transport error or status of 400 or more |
| `PanelUser.ReportNodeOnlineUsers` | api/panel/user.go:99-114 | only an encoding failure is returned; the request's own failure is dropped |
| `NodeStart.NextRetry` | node/node.go:114-119 | under a minute the delay doubles, capped at a minute; at a minute or more it stays |
| `NodeStart.RetryDelayClosedForm` | node/node.go:101-119 | the delays are 10, 20 and 40 s, then 60 s for good |
| `NodeStart.RetryDelayBounded` | node/node.go:114-119 | the delay stays between 10 and 60 s and never decreases |
| `NodeStart.Retried` | node/node.go:102-112 | counts the leading failed-and-retried attempts |
| `NodeStart.RunController` | node/node.go:98-121 | the loop stops at the first success or at a close during a wait; each wait uses the current delay |
| `NodeStart.Mode` | node/node.go:54-67 | ws_url exactly when an override URL is set; otherwise ws_parts exactly when some separate override is set |
| `NodeStart.ReportedEndpoint` | node/node.go:54-87 | an unparsable override URL is reported as written; an unparsable API host gives no endpoint; derived ports are positive |
| `NodeStart.ReportedMatchesChannel` | node/node.go:56-86 | the reported endpoint's scheme and host are the ones the client's channel dials |
| `NodeStart.DefaultModeEndpoint` | node/node.go:68-86 | without overrides the endpoint is port 51821 on the API host name, and wss exactly for https |
| `NodeStart.TrueIndices` | node/node.go:36-46 | selects the positions of the constructed nodes, in order |
| `NodeStart.TrueIndicesComplete` | node/node.go:36-46 | every position whose node constructs is selected |
| `NodeStart.ControllerFor` | node/node.go:47-52 | a controller holds its node's client and the id built from the rewritten config |
| `NodeStart.Controllers` | node/node.go:36-52 | one controller per node whose client constructs, in order, and none for the others |
| `NodeStart.ControllersComplete` | node/node.go:36-52 | every node whose client constructs gets a controller carrying its position |
| `NodeStart.Rewritten` | node/node.go:37 | every node's config, including those skipped, has its type replaced by the normalised type and nothing else changed |
| `NodeStart.Start` | node/node.go:26-126 | Start never fails; its controllers are exactly the constructed nodes' |
| `NodeStart.V2rayRunsAsVmess` | node/node.go:50-52 | a node configured as "V2Ray" runs and is logged as a vmess node |

## Left out

- Sockets and the OS are left out: listening, the accept loop (`serve`), dialling, the `io.Copy` splice, deadlines, `allocatePort` and `loopbackFor`. A listen outcome and the client stream are inputs, and `HandleConn` stops at the point where it would splice.
- Concurrency is left out: mutexes, goroutines, wait groups, atomics, the graceful drain in `Close`, and the lock release between steps of `Unregister`. Every operation is one atomic transition.
- Library calls are oracles or inputs:
  - `http.ReadRequest`, `url.Parse` and JSON encoding and decoding;
  - the WebSocket dialer and framing;
  - the resty client with its three retries.
- `WsTransport.WsURL`: returns the endpoint as a record (scheme, host, path, query map). URL string formatting and query encoding are not modelled.
- `WsTransport.DefaultEndpointSplits`: holds only for API host names without a colon. For an IPv6 literal, the endpoint host does not split (see Findings).
- `NodeStart.ReportedEndpoint`: reports the endpoint as a record. It does not model the text that `url.URL.String` and `fmt.Sprintf` print.
- `Strings.ToLower`: maps ASCII letters only. Go's `strings.ToLower`, `ToUpper` and `EqualFold` also map non-ASCII letters.
- `Panel.TimeoutNs`: integers are unbounded, so the int64 overflow of a huge configured timeout is not modelled. The same holds for the int64 failure time and traffic counters.
- The encoding of the traffic map cannot fail in the source, so it is a total function. A marshal error of `ReportUserTraffic` is not modelled.
- `WsTransport.DoWS`: the request payload's own JSON encoding is assumed to succeed.
- The client's `UserList`, `AliveMap`, `nodeEtag` and `responseBodyHash` fields are not modelled: none of the modelled calls reads them. `assembleURL` is not part of this model, so check errors carry the path.
- `panel.go` declares no channel-override fields on `Client`, yet `ws_transport.go` reads them. The model copies them from the node's configuration.
- `Start` closes the previous generation's start loops. That is channel signalling, and it is not modelled.
- `NewController` and the controller's own `Start` and `Close` are not part of this model. Only their outcomes enter the start loop.
- Logging is left out.
- `node/lego_test.go` and `conf/conf_test.go` are left out: they exercise file, network and ACME I/O only.

## Findings

| source | as written | input that shows it | evidently intended | confidence | as-written member | corrected member |
|---|---|---|---|---|---|---|
| api/panel/user.go:45-49 | the validator is read from `headers["ETag"]` | the channel is off and the panel answers HTTP 200 with the header line `ETag: v1`; net/http files it under "Etag", so the cached validator stays "" (`PanelUser.ETagExample`, `PanelUser.AsWrittenIgnoresHttpETag`) | cache "v1", reading the header under its canonical name as well | high; not executed | `PanelUser.GetUserListAsWritten` | `PanelUser.GetUserList` |
| core/sing/ws_mux.go:103-114 | `Register` replaces only "" by "/" and stores any other path as given | registering path "ws": every request path is normalised to "/…" or "*", so the route is never an exact match (`WsMux.RegisterUnnormalizedUnreachable`) | file the route under `normalizePath(path)`, as connections are looked up | medium; not executed | `WsMux.Register` | `WsMux.RegisterNormalized` |
| api/panel/ws_transport.go:139 | the default channel host is `fmt.Sprintf("%s:%d", host, port)` of the API URL's host name | API host "https://[::1]": the host name is "::1", the endpoint host is "::1:51821", and host:port splitting rejects it, so the channel cannot be dialled (`WsTransport.IPv6ApiHostDoesNotSplit`); node/node.go:85 reports the same text | join host and port with `net.JoinHostPort`, which brackets an IPv6 literal | medium; not executed | `WsTransport.WsURL` | `WsTransport.WsURLJoined` |

=== FILE: base.dfy ===
/** Option and Result values. They stand in for Go's nil pointers and for
    its `(value, error)` return pairs throughout the model. */
module Base {

  datatype Option<+T> = None | Some(value: T)

  datatype Result<+T, +E> = Ok(value: T) | Err(error: E)
}

=== FILE: channel_breaker.dfy ===
/** The circuit breaker in front of the panel's persistent WebSocket channel
    (the `wsState` machine of api/panel/ws_transport.go).

    The breaker is Unknown until a channel request settles it, Available
    after a channel success and Unavailable after a channel failure, which
    also records the failure time. An Unavailable channel is tried again
    once 60 seconds have passed since that failure; with no failure time
    recorded it stays off for good. Times are nanoseconds of Unix time,
    supplied by the caller. */
module ChannelBreaker {

  datatype WsState = Unknown | Available | Unavailable

  datatype Breaker = Breaker(state: WsState, lastFailNs: int)

  const Second: int := 1_000_000_000
  /** How long an Unavailable channel rests before it is tried again. */
  const CooldownNs: int := 60 * Second

  /** The breaker a new client starts with: Unknown, no failure recorded. */
  const Initial: Breaker := Breaker(Unknown, 0)

  /** Whether the channel may be used, and the breaker after asking. */
  datatype Check = Check(enabled: bool, next: Breaker)

  /** `wsEnabled` at time `nowNs`. */
  function Enabled(b: Breaker, nowNs: int): (r: Check)
    ensures b.state != Unavailable ==> r == Check(true, b)
    ensures b.state == Unavailable && b.lastFailNs <= 0 ==> r == Check(false, b)
    ensures b.state == Unavailable && b.lastFailNs > 0 ==>
      (r.enabled <==> nowNs - b.lastFailNs >= CooldownNs)
    ensures r.enabled ==> r.next.state != Unavailable
    ensures b.state == Unavailable && r.enabled ==> r.next == b.(state := Unknown)
    ensures !r.enabled ==> r.next == b
    ensures r.next.lastFailNs == b.lastFailNs
  {
    if b.state != Unavailable then Check(true, b)
    else if b.lastFailNs <= 0 then Check(false, b)
    else if nowNs - b.lastFailNs >= CooldownNs then Check(true, b.(state := Unknown))
    else Check(false, b)
  }

  /** `setWsState`: moving to Unavailable stamps the failure time; any
      other state keeps the old stamp. */
  function SetState(b: Breaker, s: WsState, nowNs: int): (r: Breaker)
    ensures r.state == s
    ensures s == Unavailable ==> r.lastFailNs == nowNs
    ensures s != Unavailable ==> r.lastFailNs == b.lastFailNs
  {
    if s == Unavailable then Breaker(s, nowNs) else b.(state := s)
  }

  /** A channel that failed at `failNs` (after the epoch) is skipped for the
      next 60 seconds and offered again from then on, whatever state it was
      in before. */
  lemma CooldownAfterFailure(b: Breaker, failNs: int, nowNs: int)
    requires failNs > 0
    ensures Enabled(SetState(b, Unavailable, failNs), nowNs).enabled <==> nowNs >= failNs + CooldownNs
    ensures nowNs >= failNs + CooldownNs ==>
      Enabled(SetState(b, Unavailable, failNs), nowNs).next == Breaker(Unknown, failNs)
  {
  }

  /** Asking again at the same time gives the same answer and changes
      nothing further. */
  lemma EnabledIdempotent(b: Breaker, nowNs: int)
    ensures var c := Enabled(b, nowNs);
      Enabled(c.next, nowNs) == Check(c.enabled, c.next)
  {
  }

  /** A channel that succeeds keeps being offered at every later time, and
      a success does not erase the last failure time. */
  lemma AvailableStaysEnabled(b: Breaker, okNs: int, nowNs: int)
    ensures var a := SetState(b, Available, okNs);
      Enabled(a, nowNs) == Check(true, a) && a.lastFailNs == b.lastFailNs
  {
  }
}

=== FILE: net.dfy ===
/** The pieces of Go's `net`, `net/url` and `net/textproto` packages whose
    results the agent's logic depends on. `url.Parse` itself is not modelled:
    its result is the `Url` record, supplied by the caller. */
module Net {
  import opened Base
  import opened Strings

  /** The fields of a parsed URL that the agent reads: scheme, host (with
      any port), `Hostname()` (host without port or brackets) and path. */
  datatype Url = Url(scheme: string, host: string, hostname: string, path: string)

  /** A URL parser: the outcome of `url.Parse` on a string. */
  type UrlParser = string -> Result<Url, string>

  // ---------------------------------------------------------------------
  // net.SplitHostPort / net.JoinHostPort
  // ---------------------------------------------------------------------

  /** `net.SplitHostPort`: splits "host:port" or "[host]:port" at the last
      colon, and rejects a missing port, stray colons and stray brackets. */
  function SplitHostPort(hp: string): (r: Option<(string, string)>)
    ensures r.Some? ==> ':' in hp
    ensures r.Some? ==> ':' !in r.value.1 && '[' !in r.value.1 && ']' !in r.value.1
  {
    var i := LastIndexOf(hp, ':');
    if i < 0 then None
    else if hp[0] == '[' then
      var end := IndexOf(hp, ']');
      if end < 0 || end + 1 != i then None
      else if '[' in hp[1..] || ']' in hp[end + 1..] then None
      else
        assert hp[i + 1..] == hp[end + 1..][1..];
        Some((hp[1..end], hp[i + 1..]))
    else
      var host := hp[..i];
      if ':' in host || '[' in hp || ']' in hp then None
      else
        assert forall c :: c in hp[i + 1..] ==> c in hp;
        Some((host, hp[i + 1..]))
  }

  /** `net.JoinHostPort`: brackets a host that contains a colon. */
  function JoinHostPort(host: string, port: string): string {
    if ':' in host then "[" + host + "]:" + port else host + ":" + port
  }

  /** Splitting undoes joining, for hosts and ports without brackets. */
  lemma SplitJoinHostPort(host: string, port: string)
    requires '[' !in host && ']' !in host
    requires ':' !in port && '[' !in port && ']' !in port
    ensures SplitHostPort(JoinHostPort(host, port)) == Some((host, port))
  {
    if ':' in host {
      SplitJoinBracketed(host, port);
    } else {
      SplitJoinPlain(host, port);
    }
  }

  lemma SplitJoinBracketed(host: string, port: string)
    requires ':' in host && '[' !in host && ']' !in host
    requires ':' !in port && '[' !in port && ']' !in port
    ensures SplitHostPort(JoinHostPort(host, port)) == Some((host, port))
  {
    var hp := "[" + host + "]:" + port;
    assert JoinHostPort(host, port) == hp;
    var end := |host| + 1;
    assert hp[1..end] == host;
    assert hp[..end] == "[" + host;
    assert hp[end + 1..] == ":" + port;
    assert hp[end + 2..] == port;
    assert hp[1..] == host + "]:" + port;
    SplitBracketed(hp, end);
  }

  /** A "[host]:port" text with no stray delimiters splits at its bracket. */
  lemma SplitBracketed(hp: string, end: int)
    requires 0 < end && end + 1 < |hp|
    requires hp[0] == '[' && hp[end] == ']' && hp[end + 1] == ':'
    requires ']' !in hp[..end] && ':' !in hp[end + 2..]
    requires '[' !in hp[1..] && ']' !in hp[end + 1..]
    ensures SplitHostPort(hp) == Some((hp[1..end], hp[end + 2..]))
  {
    LastIndexOfIs(hp, ':', end + 1);
    IndexOfIs(hp, ']', end);
  }

  lemma SplitJoinPlain(host: string, port: string)
    requires ':' !in host && '[' !in host && ']' !in host
    requires ':' !in port && '[' !in port && ']' !in port
    ensures SplitHostPort(JoinHostPort(host, port)) == Some((host, port))
  {
    var hp := host + ":" + port;
    assert JoinHostPort(host, port) == hp;
    var i := |host|;
    assert hp[i + 1..] == port;
    LastIndexOfIs(hp, ':', i);
    assert hp[..i] == host;
    if |host| > 0 {
      assert hp[0] == host[0];
    }
    assert forall c :: c in hp ==> c in host || c == ':' || c in port;
  }

  // ---------------------------------------------------------------------
  // net/textproto header keys
  // ---------------------------------------------------------------------

  /** A character allowed in an HTTP header field name (a "tchar" of
      section 5.6.2 of RFC 9110). */
  predicate IsTokenChar(c: char) {
    || 'a' <= c <= 'z' || 'A' <= c <= 'Z' || '0' <= c <= '9'
    || c in "!#$%&'*+-.^_`|~"
  }

  /** Upper-cases the first letter and every letter after a '-', and
      lower-cases every other letter. */
  function CanonicalCase(k: string, upper: bool): (r: string)
    ensures |r| == |k|
    decreases |k|
  {
    if |k| == 0 then []
    else
      var c := if upper then UpperChar(k[0]) else LowerChar(k[0]);
      [c] + CanonicalCase(k[1..], c == '-')
  }

  /** `textproto.CanonicalMIMEHeaderKey`: the form in which `net/http` files
      a response header; a key holding a non-token character is left as it
      is. */
  function CanonicalKey(k: string): string {
    if forall i :: 0 <= i < |k| ==> IsTokenChar(k[i]) then CanonicalCase(k, true) else k
  }

  /** An `http.Header` built from header lines in arrival order: each value
      is appended under the canonical form of its name. */
  function HeaderMap(lines: seq<(string, string)>): (h: map<string, seq<string>>)
    decreases |lines|
  {
    if |lines| == 0 then map[]
    else
      var h := HeaderMap(lines[..|lines| - 1]);
      var (name, value) := lines[|lines| - 1];
      var key := CanonicalKey(name);
      h[key := (if key in h then h[key] else []) + [value]]
  }

  /** The values `lines` gives under names whose canonical form is `key`. */
  function ValuesFor(lines: seq<(string, string)>, key: string): seq<string>
    decreases |lines|
  {
    if |lines| == 0 then []
    else
      var (name, value) := lines[|lines| - 1];
      ValuesFor(lines[..|lines| - 1], key) + (if CanonicalKey(name) == key then [value] else [])
  }

  /** A header map holds a key exactly when some line's name canonicalises to
      it, and then lists that key's values in arrival order. */
  lemma {:induction false} HeaderMapValues(lines: seq<(string, string)>, key: string)
    ensures key in HeaderMap(lines) <==> |ValuesFor(lines, key)| > 0
    ensures key in HeaderMap(lines) ==> HeaderMap(lines)[key] == ValuesFor(lines, key)
    decreases |lines|
  {
    if |lines| > 0 {
      HeaderMapValues(lines[..|lines| - 1], key);
    }
  }

  /** No header name canonicalises to "ETag": the letter after 'E' is always
      lower-cased. */
  lemma NoCanonicalETag(k: string)
    ensures CanonicalKey(k) != "ETag"
  {
    if forall i :: 0 <= i < |k| ==> IsTokenChar(k[i]) {
      if |k| == 4 {
        var r := CanonicalCase(k, true);
        var c0 := UpperChar(k[0]);
        var tail := k[1..];
        assert r == [c0] + CanonicalCase(tail, c0 == '-');
        assert CanonicalCase(tail, c0 == '-')[0] ==
          (if c0 == '-' then UpperChar(tail[0]) else LowerChar(tail[0]));
        assert r[0] != 'E' || !IsUpperAscii(r[1]);
      }
    }
  }

  /** Hence an `http.Header` read off the wire never has the key "ETag". */
  lemma {:induction false} HeaderMapHasNoETag(lines: seq<(string, string)>)
    ensures "ETag" !in HeaderMap(lines)
    decreases |lines|
  {
    if |lines| > 0 {
      HeaderMapHasNoETag(lines[..|lines| - 1]);
      NoCanonicalETag(lines[|lines| - 1].0);
    }
  }
}

=== FILE: node_start.dfy ===
/** Starting the node controllers (node/node.go): one panel client per
    configured node, skipping the ones that fail to construct; the channel
    endpoint each node reports; and the controller start loop with its
    capped doubling retry delay. */
module NodeStart {
  import opened Base
  import opened Strings
  import opened Net
  import opened ChannelBreaker
  import opened Panel
  import opened WsTransport

  // ---------------------------------------------------------------------
  // Retry delay
  // ---------------------------------------------------------------------

  const InitialRetryNs: int := 10 * Second
  const MaxRetryNs: int := 60 * Second

  /** The delay after one more failure: doubled while under a minute, and
      never past a minute. */
  function NextRetry(d: int): (r: int)
    ensures d < MaxRetryNs ==> r == if 2 * d > MaxRetryNs then MaxRetryNs else 2 * d
    ensures d >= MaxRetryNs ==> r == d
  {
    if d < MaxRetryNs then (if 2 * d > MaxRetryNs then MaxRetryNs else 2 * d) else d
  }

  /** The delay waited after the (k+1)-th failed start. */
  function RetryDelay(k: nat): int
    decreases k
  {
    if k == 0 then InitialRetryNs else NextRetry(RetryDelay(k - 1))
  }

  /** The delays are 10, 20 and 40 seconds, then a minute for good. */
  lemma {:induction false} RetryDelayClosedForm(k: nat)
    ensures k == 0 ==> RetryDelay(k) == 10 * Second
    ensures k == 1 ==> RetryDelay(k) == 20 * Second
    ensures k == 2 ==> RetryDelay(k) == 40 * Second
    ensures k >= 3 ==> RetryDelay(k) == 60 * Second
    decreases k
  {
    if k > 0 {
      RetryDelayClosedForm(k - 1);
    }
  }

  /** The delay never exceeds a minute, never drops below ten seconds and
      never decreases. */
  lemma RetryDelayBounded(k: nat)
    ensures InitialRetryNs <= RetryDelay(k) <= MaxRetryNs
    ensures RetryDelay(k) <= RetryDelay(k + 1)
  {
    RetryDelayClosedForm(k);
    RetryDelayClosedForm(k + 1);
  }

  // ---------------------------------------------------------------------
  // The controller start loop
  // ---------------------------------------------------------------------

  /** How one start attempt goes: the controller starts; or it fails and
      the retry wait runs out; or it fails and the node is closed during
      the wait. */
  datatype Attempt = Succeeded | FailedThenRetried | FailedThenClosed

  /** How the loop ended after the given attempts: the controller started,
      the loop was stopped by closing, or it is still retrying. */
  datatype LoopEnd = StartedAfter(tries: nat) | StoppedAfter(tries: nat) | StillRetrying

  /** The number of leading attempts that failed and were retried. */
  function Retried(attempts: seq<Attempt>): (n: nat)
    ensures n <= |attempts|
    ensures forall j :: 0 <= j < n ==> attempts[j] == FailedThenRetried
    ensures n < |attempts| ==> attempts[n] != FailedThenRetried
    decreases |attempts|
  {
    if |attempts| == 0 || attempts[0] != FailedThenRetried then 0
    else
      var n := Retried(attempts[1..]);
      assert forall j :: 1 <= j < n + 1 ==> attempts[j] == attempts[1..][j - 1];
      n + 1
  }

  /** The retried prefix is exactly the attempts before the first one that
      was not retried. */
  lemma RetriedIs(attempts: seq<Attempt>, i: nat)
    requires i <= |attempts|
    requires forall j :: 0 <= j < i ==> attempts[j] == FailedThenRetried
    requires i < |attempts| ==> attempts[i] != FailedThenRetried
    ensures Retried(attempts) == i
  {
    var n := Retried(attempts);
    assert !(n < i) && !(i < n);
  }

  /** The start loop of one controller over the attempts seen so far,
      returning how it ended and every retry delay it waited on. */
  method RunController(attempts: seq<Attempt>) returns (end: LoopEnd, waits: seq<int>)
    ensures var n := Retried(attempts);
      && (n == |attempts| ==> end == StillRetrying && |waits| == n)
      && (n < |attempts| && attempts[n] == Succeeded ==> end == StartedAfter(n + 1) && |waits| == n)
      && (n < |attempts| && attempts[n] == FailedThenClosed ==> end == StoppedAfter(n + 1) && |waits| == n + 1)
    ensures forall j :: 0 <= j < |waits| ==> waits[j] == RetryDelay(j)
  {
    var retry := InitialRetryNs;
    waits := [];
    var i := 0;
    while i < |attempts|
      invariant 0 <= i <= |attempts|
      invariant forall j :: 0 <= j < i ==> attempts[j] == FailedThenRetried
      invariant retry == RetryDelay(i)
      invariant |waits| == i && forall j :: 0 <= j < i ==> waits[j] == RetryDelay(j)
      decreases |attempts| - i
    {
      match attempts[i]
      case Succeeded =>
        RetriedIs(attempts, i);
        return StartedAfter(i + 1), waits;
      case FailedThenClosed =>
        RetriedIs(attempts, i);
        return StoppedAfter(i + 1), waits + [retry];
      case FailedThenRetried =>
        waits := waits + [retry];
        retry := NextRetry(retry);
        i := i + 1;
    }
    RetriedIs(attempts, i);
    end := StillRetrying;
  }

  // ---------------------------------------------------------------------
  // The reported channel endpoint
  // ---------------------------------------------------------------------

  /** Which channel settings a node uses: a full override URL, some of the
      separate overrides, or none. */
  datatype WsMode = WsUrlMode | WsPartsMode | DefaultMode

  function Mode(cfg: ApiConfig): (r: WsMode)
    ensures r == WsUrlMode <==> cfg.wsUrl != ""
    ensures r == WsPartsMode <==> cfg.wsUrl == "" && (cfg.wsScheme != "" || cfg.wsHost != "" || cfg.wsPort > 0)
  {
    if cfg.wsUrl != "" then WsUrlMode
    else if cfg.wsScheme != "" || cfg.wsHost != "" || cfg.wsPort > 0 then WsPartsMode
    else DefaultMode
  }

  /** The endpoint a node reports: none, the override text as configured,
      the override URL's scheme, host and path, or the derived scheme, host
      and port. */
  datatype Reported =
    | NoEndpoint
    | RawEndpoint(text: string)
    | UrlEndpoint(scheme: string, host: string, path: string)
    | PartsEndpoint(scheme: string, host: string, port: int)

  function ReportedEndpoint(cfg: ApiConfig, parse: UrlParser): (r: Reported)
    ensures cfg.wsUrl != "" && parse(cfg.wsUrl).Err? ==> r == RawEndpoint(cfg.wsUrl)
    ensures cfg.wsUrl == "" && parse(cfg.apiHost).Err? ==> r == NoEndpoint
    ensures r.PartsEndpoint? ==> cfg.wsUrl == "" && r.port > 0
  {
    if cfg.wsUrl != "" then
      match parse(cfg.wsUrl)
      case Ok(u) => UrlEndpoint(u.scheme, u.host, u.path)
      case Err(_) => RawEndpoint(cfg.wsUrl)
    else
      match parse(cfg.apiHost)
      case Err(_) => NoEndpoint
      case Ok(api) =>
        PartsEndpoint(ChannelScheme(api.scheme, cfg.wsScheme), ChannelHost(api.hostname, cfg.wsHost), ChannelPort(cfg.wsPort))
  }

  /** The reported endpoint names the scheme and host the client's channel
      dials, for every path. */
  lemma ReportedMatchesChannel(cfg: ApiConfig, path: string, parse: UrlParser)
    requires New(cfg).client.Ok?
    requires WsURL(New(cfg).client.value, path, parse).Ok?
    ensures var e := WsURL(New(cfg).client.value, path, parse).value;
      match ReportedEndpoint(New(cfg).config, parse)
      case UrlEndpoint(scheme, host, base) => e.scheme == scheme && e.host == host && e.path == JoinPath(base, path)
      case PartsEndpoint(scheme, host, port) => e.scheme == scheme && e.host == host + ":" + Itoa(port)
      case _ => false
  {
  }

  /** A node without overrides reports "wss" exactly for an https API host,
      on port 51821. */
  lemma DefaultModeEndpoint(cfg: ApiConfig, parse: UrlParser)
    requires Mode(cfg) == DefaultMode && parse(cfg.apiHost).Ok?
    ensures var r := ReportedEndpoint(cfg, parse);
      && r.PartsEndpoint? && r.port == 51821
      && r.host == parse(cfg.apiHost).value.hostname
      && (r.scheme == "wss" <==> EqualFold(parse(cfg.apiHost).value.scheme, "https"))
      && (r.scheme == "ws" || r.scheme == "wss")
  {
  }

  // ---------------------------------------------------------------------
  // Start
  // ---------------------------------------------------------------------

  /** A started node: its position in the configuration, its client, its
      name in the log, and its channel mode and endpoint. */
  datatype Controller = Controller(index: nat, client: Client, id: string, mode: WsMode, endpoint: Reported)

  /** The name a node's start loop logs under, "<api host>-<type>-<id>". */
  function LoopId(cfg: ApiConfig): string {
    cfg.apiHost + "-" + cfg.nodeType + "-" + Itoa(cfg.nodeId)
  }

  /** The configurations after construction, which rewrites each one's
      node type. */
  function Rewritten(cfgs: seq<ApiConfig>): (r: seq<ApiConfig>)
    ensures |r| == |cfgs|
    ensures forall i :: 0 <= i < |cfgs| ==> r[i] == cfgs[i].(nodeType := NormalizeNodeType(cfgs[i].nodeType))
  {
    seq(|cfgs|, i requires 0 <= i < |cfgs| => New(cfgs[i]).config)
  }

  /** The positions of the true entries of `oks`, in order. */
  function TrueIndices(oks: seq<bool>): (r: seq<nat>)
    ensures |r| <= |oks|
    ensures forall j :: 0 <= j < |r| ==> r[j] < |oks| && oks[r[j]]
    ensures forall j, k :: 0 <= j < k < |r| ==> r[j] < r[k]
    decreases |oks|
  {
    if |oks| == 0 then []
    else
      var n := |oks| - 1;
      var prev := TrueIndices(oks[..n]);
      assert forall j :: 0 <= j < |prev| ==> oks[..n][prev[j]] == oks[prev[j]];
      if oks[n] then prev + [n] else prev
  }

  /** Every true entry's position is selected. */
  lemma {:induction false} TrueIndicesComplete(oks: seq<bool>, i: int)
    requires 0 <= i < |oks| && oks[i]
    ensures i in TrueIndices(oks)
    decreases |oks|
  {
    var n := |oks| - 1;
    if i < n {
      assert oks[..n][i];
      TrueIndicesComplete(oks[..n], i);
    }
  }

  /** Which nodes' clients construct. */
  function Constructs(cfgs: seq<ApiConfig>): (r: seq<bool>)
    ensures |r| == |cfgs|
    ensures forall i :: 0 <= i < |cfgs| ==> r[i] == New(cfgs[i]).client.Ok?
  {
    seq(|cfgs|, i requires 0 <= i < |cfgs| => New(cfgs[i]).client.Ok?)
  }

  /** The controller of the node at `index`, whose client constructs. */
  function ControllerFor(cfg: ApiConfig, index: nat, parse: UrlParser): (r: Controller)
    requires New(cfg).client.Ok?
    ensures r.index == index && r.client == New(cfg).client.value && r.id == LoopId(New(cfg).config)
  {
    var made := New(cfg);
    Controller(index, made.client.value, LoopId(made.config), Mode(made.config), ReportedEndpoint(made.config, parse))
  }

  /** The controllers of the nodes among `cfgs` whose client constructs,
      in configuration order. */
  function Controllers(cfgs: seq<ApiConfig>, parse: UrlParser): (r: seq<Controller>)
    ensures |r| <= |cfgs|
    ensures forall j :: 0 <= j < |r| ==>
      && r[j].index < |cfgs|
      && New(cfgs[r[j].index]).client.Ok?
      && r[j] == ControllerFor(cfgs[r[j].index], r[j].index, parse)
    ensures forall j, k :: 0 <= j < k < |r| ==> r[j].index < r[k].index
    ensures |r| == |TrueIndices(Constructs(cfgs))|
  {
    var idx := TrueIndices(Constructs(cfgs));
    seq(|idx|, j requires 0 <= j < |idx| => ControllerFor(cfgs[idx[j]], idx[j], parse))
  }

  /** Every node whose client constructs has a controller. */
  lemma ControllersComplete(cfgs: seq<ApiConfig>, parse: UrlParser, i: int)
    requires 0 <= i < |cfgs| && New(cfgs[i]).client.Ok?
    ensures exists j :: 0 <= j < |Controllers(cfgs, parse)| && Controllers(cfgs, parse)[j].index == i
  {
    var oks := Constructs(cfgs);
    TrueIndicesComplete(oks, i);
    var idx := TrueIndices(oks);
    var j :| 0 <= j < |idx| && idx[j] == i;
    assert Controllers(cfgs, parse)[j].index == i;
  }

  /** The result of `Start`: the controllers, the rewritten configurations
      and the returned error. */
  datatype Started = Started(controllers: seq<Controller>, configs: seq<ApiConfig>, err: Option<string>)

  /** `Start`: a node whose client fails to construct is skipped; the call
      itself never fails. */
  function Start(cfgs: seq<ApiConfig>, parse: UrlParser): (r: Started)
    ensures r.err.None?
    ensures r.controllers == Controllers(cfgs, parse)
    ensures r.configs == Rewritten(cfgs)
    ensures |r.controllers| <= |cfgs|
  {
    Started(Controllers(cfgs, parse), Rewritten(cfgs), None)
  }

  /** Some controller of `cs` runs the node at `i` as a vmess node and logs
      under its vmess name. */
  predicate RunsAsVmess(cs: seq<Controller>, cfg: ApiConfig, i: nat) {
    exists j :: 0 <= j < |cs| && cs[j].index == i && cs[j].client.nodeType == "vmess"
      && cs[j].id == LoopId(cfg.(nodeType := "vmess"))
  }

  /** A node configured as "V2Ray" runs and logs as a vmess node. */
  lemma V2rayRunsAsVmess(cfgs: seq<ApiConfig>, i: nat, parse: UrlParser)
    requires i < |cfgs| && cfgs[i].nodeType == "V2Ray"
    ensures New(cfgs[i]).client.Ok?
    ensures RunsAsVmess(Start(cfgs, parse).controllers, cfgs[i], i)
  {
    var cfg := cfgs[i];
    assert ToLower("V2Ray") == "v2ray";
    assert NormalizeNodeType(cfg.nodeType) == "vmess";
    var made := New(cfg);
    assert made.client.Ok? && made.config.nodeType == "vmess" && made.client.value.nodeType == "vmess";
    var cs := Controllers(cfgs, parse);
    ControllersComplete(cfgs, parse, i);
    var j :| 0 <= j < |cs| && cs[j].index == i;
    var ctrl := cs[j];
    assert ctrl == ControllerFor(cfg, i, parse);
    assert made.config == cfg.(nodeType := "vmess");
  }
}

=== FILE: panel.dfy ===
/** Construction of a panel client (api/panel/panel.go): node-type
    validation, the request timeout, the identity query parameters and the
    channel's initial breaker state; and `disableWS`, which switches the
    channel off. */
module Panel {
  import opened Base
  import opened Strings
  import opened ChannelBreaker

  /** The part of a node's API configuration the client reads. The four
      `ws*` fields are the optional channel overrides; `timeout` is in
      seconds. */
  datatype ApiConfig = ApiConfig(
    apiHost: string,
    nodeType: string,
    nodeId: int,
    key: string,
    timeout: int,
    wsUrl: string,
    wsScheme: string,
    wsHost: string,
    wsPort: int)

  /** A panel client. `connected` says whether a channel connection is
      open; `userEtag` is the user-list validator from the last reply. */
  datatype Client = Client(
    apiHost: string,
    token: string,
    nodeType: string,
    nodeId: int,
    timeoutNs: int,
    queryParams: map<string, string>,
    wsUrl: string,
    wsScheme: string,
    wsHost: string,
    wsPort: int,
    breaker: Breaker,
    connected: bool,
    userEtag: string)

  /** The node types a client accepts, in lower case. */
  const NodeTypes: set<string> :=
    {"vmess", "trojan", "shadowsocks", "hysteria", "hysteria2", "tuic", "anytls", "vless"}

  const DefaultTimeoutNs: int := 5 * Second

  /** The lower-cased node type with the alias "v2ray" resolved to
      "vmess". */
  function NormalizeNodeType(t: string): (r: string)
    ensures IsLower(r)
    ensures r == "vmess" <==> EqualFold(t, "v2ray") || EqualFold(t, "vmess")
    ensures EqualFold(t, "v2ray") ==> r == "vmess"
    ensures !EqualFold(t, "v2ray") ==> r == ToLower(t)
  {
    var lowered := ToLower(t);
    LowerOfLower("v2ray");
    LowerOfLower("vmess");
    if lowered == "v2ray" then "vmess" else lowered
  }

  /** The client's request timeout: the configured seconds when positive,
      five seconds otherwise. */
  function TimeoutNs(seconds: int): (r: int)
    ensures r > 0
    ensures seconds > 0 ==> r == seconds * Second
    ensures seconds <= 0 ==> r == DefaultTimeoutNs
  {
    if seconds > 0 then seconds * Second else DefaultTimeoutNs
  }

  /** The identity parameters added to every request. */
  function QueryParams(nodeType: string, nodeId: int, token: string): (q: map<string, string>)
    ensures q.Keys == {"node_type", "node_id", "token"}
    ensures q["node_type"] == nodeType && q["token"] == token
    ensures Atoi(q["node_id"]) == Some(nodeId)
  {
    ItoaRoundTrip(nodeId);
    map["node_type" := nodeType, "node_id" := Itoa(nodeId), "token" := token]
  }

  /** `New` returns the client or an error, and rewrites the configuration's
      node type to its normalised form as a side effect. */
  datatype Constructed = Constructed(config: ApiConfig, client: Result<Client, string>)

  /** `New`. */
  function New(c: ApiConfig): (r: Constructed)
    ensures r.config == c.(nodeType := NormalizeNodeType(c.nodeType))
    ensures r.client.Ok? <==> NormalizeNodeType(c.nodeType) in NodeTypes
    ensures r.client.Err? ==> r.client.error == "unsupported Node type: " + ToLower(c.nodeType)
    ensures r.client.Ok? ==>
      var cl := r.client.value;
      && cl.nodeType == NormalizeNodeType(c.nodeType)
      && cl.apiHost == c.apiHost && cl.token == c.key && cl.nodeId == c.nodeId
      && cl.timeoutNs == TimeoutNs(c.timeout)
      && cl.queryParams.Keys == {"node_type", "node_id", "token"}
      && cl.queryParams["node_type"] == cl.nodeType
      && cl.queryParams["token"] == c.key
      && Atoi(cl.queryParams["node_id"]) == Some(c.nodeId)
      && cl.breaker == Initial && !cl.connected && cl.userEtag == ""
  {
    var nodeType := NormalizeNodeType(c.nodeType);
    var config := c.(nodeType := nodeType);
    if nodeType !in NodeTypes then
      Constructed(config, Err("unsupported Node type: " + nodeType))
    else
      Constructed(config, Ok(Client(
        c.apiHost, c.key, nodeType, c.nodeId, TimeoutNs(c.timeout),
        QueryParams(nodeType, c.nodeId, c.key),
        c.wsUrl, c.wsScheme, c.wsHost, c.wsPort,
        Initial, false, "")))
  }

  /** Node types differing only in letter case give the same client. */
  lemma NewIgnoresCase(c: ApiConfig, t1: string, t2: string)
    requires EqualFold(t1, t2)
    ensures New(c.(nodeType := t1)).client == New(c.(nodeType := t2)).client
  {
  }

  /** The rewritten configuration constructs the same client again: the
      normalised node type is a fixed point of normalisation. */
  lemma NewRewriteIsStable(c: ApiConfig)
    ensures New(New(c).config) == New(c)
  {
    var t := NormalizeNodeType(c.nodeType);
    LowerOfLower(t);
    assert NormalizeNodeType(t) == t;
  }

  /** `disableWS`: the channel becomes Unavailable and its connection is
      dropped; no failure time is recorded. */
  function DisableWS(c: Client): (r: Client)
    ensures r.breaker.state == Unavailable && !r.connected
    ensures r.breaker.lastFailNs == c.breaker.lastFailNs
    ensures r.(breaker := c.breaker, connected := c.connected) == c
  {
    c.(breaker := c.breaker.(state := Unavailable), connected := false)
  }

  /** Disabling a client whose channel never failed switches the channel off
      at every time. */
  lemma DisabledForGood(c: Client, nowNs: int)
    requires c.breaker.lastFailNs <= 0
    ensures Enabled(DisableWS(c).breaker, nowNs) == Check(false, DisableWS(c).breaker)
  {
  }
}

=== FILE: panel_user.dfy ===
/** The user-facing panel calls (api/panel/user.go): how each call turns
    the transport's exchange into its result. JSON encoding and decoding
    are oracle functions. */
module PanelUser {
  import opened Base
  import opened Strings
  import opened Net
  import opened Panel
  import opened WsTransport

  const UserPath: string := "/api/v1/server/UniProxy/user"
  const AlivePath: string := "/api/v1/server/UniProxy/alivelist"
  const PushPath: string := "/api/v1/server/UniProxy/push"
  const OnlinePath: string := "/api/v1/server/UniProxy/alive"

  datatype UserInfo = UserInfo(id: int, uuid: string, speedLimit: int, deviceLimit: int)

  datatype UserError = CheckFailed(check: CheckError) | DecodeFailed

  /** The outcome of a user-list pull: no list (not modified since the
      cached validator, or a reply without one), the decoded users, or an
      error. The source returns a nil list and no error in both cases of
      `Unchanged`, so its callers cannot tell them apart. */
  datatype UserListResult = Unchanged | Users(users: seq<UserInfo>) | Failed(err: UserError)

  /** The JSON decoding of a user-list body: `None` when it does not decode,
      `Some(None)` when it decodes but its "users" field is null or absent,
      and `Some(Some(users))` otherwise. */
  type UserListDecoder = seq<Byte> -> Option<Option<seq<UserInfo>>>

  /** The headers of a user-list pull: the cached validator and the
      accepted type. */
  function UserListHeaders(etag: string): (h: map<string, string>)
    ensures h.Keys == {"If-None-Match", "Accept"}
    ensures h["If-None-Match"] == etag && h["Accept"] == "application/json"
  {
    map["If-None-Match" := etag, "Accept" := "application/json"]
  }

  /** The first value filed under exactly `key`, if any. */
  function FirstValue(h: map<string, seq<string>>, key: string): (r: Option<string>)
    ensures r.Some? <==> key in h && |h[key]| > 0
    ensures r.Some? ==> r.value == h[key][0]
  {
    if key in h && |h[key]| > 0 then Some(h[key][0]) else None
  }

  /** The validator as the source reads it: only a header filed under the
      exact key "ETag". */
  function ETagAsWritten(h: Option<map<string, seq<string>>>): (r: Option<string>)
    ensures r.Some? ==> h.Some? && FirstValue(h.value, "ETag") == r
    ensures h.Some? && FirstValue(h.value, "ETag").Some? ==> r == FirstValue(h.value, "ETag")
  {
    if h.Some? then FirstValue(h.value, "ETag") else None
  }

  /** The validator wherever it is filed: under "ETag" as a channel reply
      may carry it, else under "Etag", the canonical name an HTTP reply
      files it under. */
  function ETagOf(h: Option<map<string, seq<string>>>): (r: Option<string>)
    ensures h.Some? && FirstValue(h.value, "ETag").Some? ==> r == FirstValue(h.value, "ETag")
    ensures h.Some? && FirstValue(h.value, "ETag").None? ==> r == FirstValue(h.value, "Etag")
    ensures h.None? ==> r.None?
  {
    if h.None? then None
    else if FirstValue(h.value, "ETag").Some? then FirstValue(h.value, "ETag")
    else FirstValue(h.value, "Etag")
  }

  /** The cached validator after a pull, and its result. */
  datatype UserListStep = UserListStep(etag: string, result: UserListResult)

  /** The result handling of `GetUserList`, given the validator `found` in
      the reply: 304 first, then the response check, then decoding; only a
      decoded reply replaces the cached validator, and only when it carries
      one. A decoded reply without a users list yields no list, as a 304
      does. */
  function HandleUserList(etag: string, x: Exchange, decode: UserListDecoder, found: Option<string>): (r: UserListStep)
    ensures x.status == 304 ==> r == UserListStep(etag, Unchanged)
    ensures x.status != 304 && CheckResponseRaw(UserPath, x.status, x.body, x.err).Some? ==>
      r == UserListStep(etag, Failed(CheckFailed(CheckResponseRaw(UserPath, x.status, x.body, x.err).value)))
    ensures x.status != 304 && x.err.None? && x.status < 400 && decode(x.body).None? ==>
      r == UserListStep(etag, Failed(DecodeFailed))
    ensures r.result.Users? <==>
      x.status != 304 && x.err.None? && x.status < 400 && decode(x.body).Some? && decode(x.body).value.Some?
    ensures r.result.Users? ==> r.result.users == decode(x.body).value.value
    ensures x.status != 304 && x.err.None? && x.status < 400 && decode(x.body) == Some(None) ==>
      r.result == Unchanged
    ensures r.etag != etag ==>
      x.status != 304 && x.err.None? && x.status < 400 && decode(x.body).Some? && found == Some(r.etag)
    ensures x.status != 304 && x.err.None? && x.status < 400 && decode(x.body).Some? && found.Some? ==>
      r.etag == found.value
  {
    if x.status == 304 then UserListStep(etag, Unchanged)
    else match CheckResponseRaw(UserPath, x.status, x.body, x.err)
      case Some(e) => UserListStep(etag, Failed(CheckFailed(e)))
      case None =>
        match decode(x.body)
        case None => UserListStep(etag, Failed(DecodeFailed))
        case Some(list) =>
          UserListStep(if found.Some? then found.value else etag, if list.Some? then Users(list.value) else Unchanged)
  }

  /** A reply that decodes without a users list gives the caller the same
      result as a 304. */
  lemma MissingListLooksNotModified(etag: string, x: Exchange, decode: UserListDecoder, found: Option<string>)
    requires x.err.None? && x.status < 400 && decode(x.body) == Some(None)
    ensures HandleUserList(etag, x, decode, found).result == HandleUserList(etag, x.(status := 304), decode, found).result
  {
  }

  /** A pull: the client after it, the result and what was carried. */
  datatype UserListCall = UserListCall(c: Client, result: UserListResult, t: Transported)

  /** `GetUserList` as the source writes it. */
  function GetUserListAsWritten(c: Client, env: Env, decode: UserListDecoder): (r: UserListCall)
    ensures r.t == DoRequest(c, "GET", UserPath, UserListHeaders(c.userEtag), [], env)
    ensures var s := HandleUserList(c.userEtag, r.t.x, decode, ETagAsWritten(r.t.x.headers));
      r.c == r.t.c.(userEtag := s.etag) && r.result == s.result
  {
    var t := DoRequest(c, "GET", UserPath, UserListHeaders(c.userEtag), [], env);
    var s := HandleUserList(c.userEtag, t.x, decode, ETagAsWritten(t.x.headers));
    UserListCall(t.c.(userEtag := s.etag), s.result, t)
  }

  /** `GetUserList`, reading the validator under either name. */
  function GetUserList(c: Client, env: Env, decode: UserListDecoder): (r: UserListCall)
    ensures r.t == DoRequest(c, "GET", UserPath, UserListHeaders(c.userEtag), [], env)
    ensures var s := HandleUserList(c.userEtag, r.t.x, decode, ETagOf(r.t.x.headers));
      r.c == r.t.c.(userEtag := s.etag) && r.result == s.result
  {
    var t := DoRequest(c, "GET", UserPath, UserListHeaders(c.userEtag), [], env);
    var s := HandleUserList(c.userEtag, t.x, decode, ETagOf(t.x.headers));
    UserListCall(t.c.(userEtag := s.etag), s.result, t)
  }

  /** Every pull sends the cached validator as If-None-Match, over whichever
      transport carries it. */
  lemma PullSendsCachedETag(c: Client, env: Env, decode: UserListDecoder)
    ensures var t := GetUserList(c, env, decode).t;
      && (t.httpSent.Some? ==> t.httpSent.value.headers["If-None-Match"] == c.userEtag)
      && (forall i :: 0 <= i < |t.wsSent| ==> t.wsSent[i].headers["If-None-Match"] == [c.userEtag])
  {
  }

  /** A 304 leaves the cached validator and reports no change, whichever
      transport answered. */
  lemma NotModifiedKeepsETag(c: Client, env: Env, decode: UserListDecoder)
    requires GetUserList(c, env, decode).t.x.status == 304
    ensures GetUserList(c, env, decode).result == Unchanged
    ensures GetUserList(c, env, decode).c.userEtag == c.userEtag
  {
  }

  /** As written, a pull answered over HTTP never caches a validator: the
      reply's header names are canonical, so "ETag" is never among them. */
  lemma AsWrittenIgnoresHttpETag(c: Client, env: Env, decode: UserListDecoder)
    requires !GetUserListAsWritten(c, env, decode).t.x.usedWS
    ensures GetUserListAsWritten(c, env, decode).c.userEtag == c.userEtag
  {
    FallbackHeadersCanonical(c, "GET", UserPath, UserListHeaders(c.userEtag), [], env);
  }

  /** As written, a pull answered over the channel does cache the validator
      a decoded reply carries under "ETag": the loss is specific to HTTP. */
  lemma AsWrittenCachesChannelETag(c: Client, env: Env, decode: UserListDecoder)
    requires var x := GetUserListAsWritten(c, env, decode).t.x;
      && x.usedWS && x.status != 304 && x.status < 400 && decode(x.body).Some?
      && x.headers.Some? && FirstValue(x.headers.value, "ETag").Some?
    ensures var x := GetUserListAsWritten(c, env, decode).t.x;
      GetUserListAsWritten(c, env, decode).c.userEtag == x.headers.value["ETag"][0]
  {
  }

  /** The canonical form of "ETag". */
  lemma CanonicalETag()
    ensures CanonicalKey("ETag") == "Etag"
  {
    var k := "ETag";
    assert forall i :: 0 <= i < |k| ==> IsTokenChar(k[i]);
    assert CanonicalCase("g", false) == "g";
    assert CanonicalCase("ag", false) == "ag";
    assert CanonicalCase("Tag", false) == "tag";
  }

  /** With the validator read under either name, an HTTP reply that decodes
      caches the first value of its first ETag line, in any letter case. */
  lemma HttpETagCached(c: Client, env: Env, decode: UserListDecoder)
    requires env.http.HttpReply?
    requires var t := GetUserList(c, env, decode).t;
      !t.x.usedWS && t.httpSent.Some? && GetUserList(c, env, decode).result.Users?
    requires |ValuesFor(env.http.headerLines, "Etag")| > 0
    ensures GetUserList(c, env, decode).c.userEtag == ValuesFor(env.http.headerLines, "Etag")[0]
  {
    var lines := env.http.headerLines;
    HeaderMapValues(lines, "Etag");
    HeaderMapHasNoETag(lines);
  }

  /** The discrepancy on one concrete reply: HTTP 200 with the header line
      "ETag: v1" on a client whose channel is off. The source keeps the empty
      validator; reading the canonical name caches "v1". */
  lemma ETagExample(c: Client, env: Env, decode: UserListDecoder)
    requires c.breaker == ChannelBreaker.Breaker(ChannelBreaker.Unavailable, 0) && c.userEtag == ""
    requires env.http == HttpReply(200, [("ETag", "v1")], []) && decode([]) == Some(Some([]))
    ensures GetUserListAsWritten(c, env, decode).c.userEtag == ""
    ensures GetUserList(c, env, decode).c.userEtag == "v1"
  {
    ETagExampleExchange(c, env);
    var h: map<string, seq<string>> := map["Etag" := ["v1"]];
    assert ETagAsWritten(Some(h)) == None && ETagOf(Some(h)) == Some("v1");
  }

  /** The exchange of that pull: the HTTP reply with its one header filed
      under "Etag". */
  lemma ETagExampleExchange(c: Client, env: Env)
    requires c.breaker == ChannelBreaker.Breaker(ChannelBreaker.Unavailable, 0)
    requires env.http == HttpReply(200, [("ETag", "v1")], [])
    ensures DoRequest(c, "GET", UserPath, UserListHeaders(""), [], env).x
      == Exchange(200, Some(map["Etag" := ["v1"]]), [], false, None)
  {
    CanonicalETag();
    var lines := [("ETag", "v1")];
    assert lines[..|lines| - 1] == [];
    var h := HeaderMap(lines);
    assert h == map["Etag" := ["v1"]] by {
      assert h == map[][CanonicalKey("ETag") := [] + ["v1"]];
      assert [] + ["v1"] == ["v1"];
    }
    assert IsGetOrPost("GET") by {
      LowerOfLower("get");
      assert ToUpper("GET") == "GET";
    }
    assert !ChannelBreaker.Enabled(c.breaker, env.nowNs).enabled;
  }

  // ---------------------------------------------------------------------
  // Alive list
  // ---------------------------------------------------------------------

  /** The result handling of `GetUserAlive`: a transport error, a status of
      399 or more, or a reply that does not decode all give the empty map;
      the call never fails. */
  function HandleAlive(x: Exchange, decode: seq<Byte> -> Option<map<int, int>>): (r: map<int, int>)
    ensures x.err.Some? || x.status >= 399 || decode(x.body).None? ==> r == map[]
    ensures x.err.None? && x.status < 399 && decode(x.body).Some? ==> r == decode(x.body).value
  {
    if x.err.Some? || x.status >= 399 then map[]
    else match decode(x.body)
      case None => map[]
      case Some(alive) => alive
  }

  datatype AliveCall = AliveCall(c: Client, alive: map<int, int>, t: Transported)

  /** `GetUserAlive`. */
  function GetUserAlive(c: Client, env: Env, decode: seq<Byte> -> Option<map<int, int>>): (r: AliveCall)
    ensures r.t == DoRequest(c, "GET", AlivePath, map["Accept" := "application/json"], [], env)
    ensures r.c == r.t.c && r.alive == HandleAlive(r.t.x, decode)
  {
    var t := DoRequest(c, "GET", AlivePath, map["Accept" := "application/json"], [], env);
    AliveCall(t.c, HandleAlive(t.x, decode), t)
  }

  /** A status of 399 passes the general response check, but the alive list
      still treats it as a failure. */
  lemma Alive399IsEmpty(x: Exchange, decode: seq<Byte> -> Option<map<int, int>>)
    requires x.err.None? && x.status == 399
    ensures CheckResponseRaw(AlivePath, x.status, x.body, x.err).None?
    ensures HandleAlive(x, decode) == map[]
  {
  }

  // ---------------------------------------------------------------------
  // Traffic and online-user reports
  // ---------------------------------------------------------------------

  datatype UserTraffic = UserTraffic(uid: int, upload: int, download: int)

  /** The report body's map: each user's [upload, download], a later entry
      for the same user replacing an earlier one. */
  function TrafficMap(ts: seq<UserTraffic>): (r: map<int, seq<int>>)
    ensures r.Keys == set i | 0 <= i < |ts| :: ts[i].uid
    decreases |ts|
  {
    if |ts| == 0 then map[]
    else
      var t := ts[|ts| - 1];
      var prev := TrafficMap(ts[..|ts| - 1]);
      assert forall i :: 0 <= i < |ts| - 1 ==> ts[..|ts| - 1][i] == ts[i];
      prev[t.uid := [t.upload, t.download]]
  }

  /** The last entry for a user is the one reported. */
  lemma {:induction false} TrafficMapLastWins(ts: seq<UserTraffic>, i: int)
    requires 0 <= i < |ts|
    requires forall j :: i < j < |ts| ==> ts[j].uid != ts[i].uid
    ensures TrafficMap(ts)[ts[i].uid] == [ts[i].upload, ts[i].download]
    decreases |ts|
  {
    if i < |ts| - 1 {
      var init := ts[..|ts| - 1];
      assert init[i] == ts[i];
      TrafficMapLastWins(init, i);
    }
  }

  datatype ReportCall = ReportCall(c: Client, err: Option<CheckError>, t: Transported)

  const JsonHeaders: map<string, string> := map["Content-Type" := "application/json", "Accept" := "application/json"]

  /** `ReportUserTraffic`: posts the traffic map and fails as the response
      check says. */
  function ReportUserTraffic(c: Client, ts: seq<UserTraffic>, encode: map<int, seq<int>> -> seq<Byte>, env: Env): (r: ReportCall)
    ensures r.t == DoRequest(c, "POST", PushPath, JsonHeaders, encode(TrafficMap(ts)), env)
    ensures r.c == r.t.c
    ensures r.err.None? <==> r.t.x.err.None? && r.t.x.status < 400
  {
    var t := DoRequest(c, "POST", PushPath, JsonHeaders, encode(TrafficMap(ts)), env);
    ReportCall(t.c, CheckResponseRaw(PushPath, t.x.status, t.x.body, t.x.err), t)
  }

  datatype OnlineCall = OnlineCall(c: Client, err: Option<string>, t: Option<Transported>)

  /** `ReportNodeOnlineUsers`: only an encoding failure is reported; the
      request's own failure is dropped. A missing map is encoded as well. */
  function ReportNodeOnlineUsers(c: Client, data: Option<map<int, seq<string>>>,
                                 encode: Option<map<int, seq<string>>> -> Result<seq<Byte>, string>, env: Env): (r: OnlineCall)
    ensures r.err.Some? <==> encode(data).Err?
    ensures encode(data).Err? ==> r.c == c && r.t.None? && r.err == Some(encode(data).error)
    ensures encode(data).Ok? ==>
      && r.t == Some(DoRequest(c, "POST", OnlinePath, JsonHeaders, encode(data).value, env))
      && r.c == r.t.value.c
  {
    match encode(data)
    case Err(e) => OnlineCall(c, Some(e), None)
    case Ok(body) =>
      var t := DoRequest(c, "POST", OnlinePath, JsonHeaders, body, env);
      OnlineCall(t.c, None, Some(t))
  }
}

=== FILE: strings.dfy ===
/** The string and byte-sequence helpers of Go's `strings` and `strconv`
    packages that the agent relies on. Case mapping covers ASCII letters
    only. */
module Strings {
  import opened Base

  /** A Go `byte`. */
  type Byte = b: int | 0 <= b < 0x100

  // ---------------------------------------------------------------------
  // ASCII case mapping (strings.ToLower, strings.ToUpper, strings.EqualFold)
  // ---------------------------------------------------------------------

  predicate IsUpperAscii(c: char) { 'A' <= c <= 'Z' }

  predicate IsLowerAscii(c: char) { 'a' <= c <= 'z' }

  function LowerChar(c: char): (r: char)
    ensures !IsUpperAscii(r)
  {
    if IsUpperAscii(c) then (c as int + 32) as char else c
  }

  function UpperChar(c: char): (r: char)
    ensures !IsLowerAscii(r)
  {
    if IsLowerAscii(c) then (c as int - 32) as char else c
  }

  /** True when `s` has no upper-case ASCII letter. */
  predicate IsLower(s: string) {
    forall i :: 0 <= i < |s| ==> !IsUpperAscii(s[i])
  }

  function ToLower(s: string): (r: string)
    ensures |r| == |s|
    ensures IsLower(r)
    ensures forall i :: 0 <= i < |s| ==>
      r[i] == if IsUpperAscii(s[i]) then (s[i] as int + 32) as char else s[i]
  {
    seq(|s|, i requires 0 <= i < |s| => LowerChar(s[i]))
  }

  function ToUpper(s: string): (r: string)
    ensures |r| == |s|
    ensures forall i :: 0 <= i < |r| ==> !IsLowerAscii(r[i])
    ensures forall i :: 0 <= i < |s| ==>
      r[i] == if IsLowerAscii(s[i]) then (s[i] as int - 32) as char else s[i]
  {
    seq(|s|, i requires 0 <= i < |s| => UpperChar(s[i]))
  }

  /** Case-insensitive equality. */
  predicate EqualFold(a: string, b: string) {
    ToLower(a) == ToLower(b)
  }

  /** Lower-casing changes nothing in a string that is already lower case. */
  lemma LowerOfLower(s: string)
    requires IsLower(s)
    ensures ToLower(s) == s
  {
  }

  // ---------------------------------------------------------------------
  // Searching (strings.HasPrefix, strings.Contains, strings.TrimRight)
  // ---------------------------------------------------------------------

  predicate HasPrefix<T(==)>(s: seq<T>, p: seq<T>) {
    |p| <= |s| && s[..|p|] == p
  }

  predicate HasSuffix<T(==)>(s: seq<T>, p: seq<T>) {
    |p| <= |s| && s[|s| - |p|..] == p
  }

  /** `sub` occurs in `s` starting at index `i`. */
  predicate OccursAt<T(==)>(s: seq<T>, sub: seq<T>, i: int) {
    0 <= i && i + |sub| <= |s| && s[i..i + |sub|] == sub
  }

  /** Occurrences in `s[1..]` are the occurrences in `s` past index 0. */
  lemma OccursShift<T>(s: seq<T>, sub: seq<T>)
    requires |s| > 0
    ensures forall j :: OccursAt(s[1..], sub, j) ==> OccursAt(s, sub, j + 1)
    ensures forall i :: OccursAt(s, sub, i) && i > 0 ==> OccursAt(s[1..], sub, i - 1)
  {
    forall j | OccursAt(s[1..], sub, j)
      ensures OccursAt(s, sub, j + 1)
    {
      assert s[1..][j..j + |sub|] == s[j + 1..j + 1 + |sub|];
    }
    forall i | OccursAt(s, sub, i) && i > 0
      ensures OccursAt(s[1..], sub, i - 1)
    {
      assert s[1..][i - 1..i - 1 + |sub|] == s[i..i + |sub|];
    }
  }

  /** `strings.Contains` and `bytes.Contains`, by a left-to-right scan. */
  function Contains<T(==)>(s: seq<T>, sub: seq<T>): (r: bool)
    ensures r <==> exists i :: OccursAt(s, sub, i)
    decreases |s|
  {
    if |s| < |sub| then false
    else if s[..|sub|] == sub then (assert OccursAt(s, sub, 0); true)
    else
      OccursShift(s, sub);
      Contains(s[1..], sub)
  }

  /** Index of the first `x` in `s`, or -1. */
  function IndexOf<T(==)>(s: seq<T>, x: T): (r: int)
    ensures -1 <= r < |s|
    ensures r >= 0 ==> s[r] == x && x !in s[..r]
    ensures r < 0 <==> x !in s
    decreases |s|
  {
    if |s| == 0 then -1
    else if s[0] == x then 0
    else
      var k := IndexOf(s[1..], x);
      assert s == [s[0]] + s[1..];
      if k < 0 then -1
      else
        assert s[..k + 1] == [s[0]] + s[1..][..k];
        k + 1
  }

  /** Index of the last `x` in `s`, or -1. */
  function LastIndexOf<T(==)>(s: seq<T>, x: T): (r: int)
    ensures -1 <= r < |s|
    ensures r >= 0 ==> s[r] == x && x !in s[r + 1..]
    ensures r < 0 <==> x !in s
    decreases |s|
  {
    if |s| == 0 then -1
    else if s[|s| - 1] == x then |s| - 1
    else
      assert s == s[..|s| - 1] + [s[|s| - 1]];
      var k := LastIndexOf(s[..|s| - 1], x);
      if k >= 0 then
        assert s[k + 1..] == s[..|s| - 1][k + 1..] + [s[|s| - 1]];
        k
      else k
  }

  /** The first `x` is at `i` when `s[i]` is `x` and none comes before. */
  lemma IndexOfIs<T>(s: seq<T>, x: T, i: int)
    requires 0 <= i < |s| && s[i] == x && x !in s[..i]
    ensures IndexOf(s, x) == i
  {
  }

  /** The last `x` is at `i` when `s[i]` is `x` and none comes after. */
  lemma LastIndexOfIs<T>(s: seq<T>, x: T, i: int)
    requires 0 <= i < |s| && s[i] == x && x !in s[i + 1..]
    ensures LastIndexOf(s, x) == i
  {
  }

  /** `strings.TrimRight(s, cut)` for a one-character cut set: drops every
      trailing `c`. */
  function TrimRight<T(==)>(s: seq<T>, c: T): (r: seq<T>)
    ensures HasPrefix(s, r)
    ensures |r| > 0 ==> r[|r| - 1] != c
    ensures forall i :: |r| <= i < |s| ==> s[i] == c
    decreases |s|
  {
    if |s| > 0 && s[|s| - 1] == c then TrimRight(s[..|s| - 1], c) else s
  }

  // ---------------------------------------------------------------------
  // Decimal text (strconv.Itoa and its inverse)
  // ---------------------------------------------------------------------

  predicate IsDigit(c: char) { '0' <= c <= '9' }

  predicate AllDigits(s: string) {
    forall i :: 0 <= i < |s| ==> IsDigit(s[i])
  }

  function DigitChar(d: int): (c: char)
    requires 0 <= d < 10
    ensures IsDigit(c)
  {
    ('0' as int + d) as char
  }

  function DigitValue(c: char): (d: int)
    requires IsDigit(c)
    ensures 0 <= d < 10
  {
    c as int - '0' as int
  }

  /** The decimal digits of `n`, without leading zeros. */
  function NatToString(n: nat): (r: string)
    ensures |r| > 0 && AllDigits(r)
    ensures r[0] == '0' ==> n == 0
    decreases n
  {
    if n < 10 then [DigitChar(n)] else NatToString(n / 10) + [DigitChar(n % 10)]
  }

  /** The value of a run of decimal digits. */
  function ParseNat(s: string): nat
    requires AllDigits(s)
    decreases |s|
  {
    if |s| == 0 then 0 else 10 * ParseNat(s[..|s| - 1]) + DigitValue(s[|s| - 1])
  }

  /** `strconv.Itoa`: an optional minus sign followed by the digits. */
  function Itoa(n: int): (r: string)
  {
    if n < 0 then "-" + NatToString(-n) else NatToString(n)
  }

  /** The inverse of `Itoa` on the strings it produces. */
  function Atoi(s: string): Option<int>
  {
    if |s| > 1 && s[0] == '-' && AllDigits(s[1..]) then
      var v: int := ParseNat(s[1..]);
      Some(-v)
    else if |s| > 0 && AllDigits(s) then Some(ParseNat(s))
    else None
  }

  lemma {:induction false} ParseNatToString(n: nat)
    ensures ParseNat(NatToString(n)) == n
    decreases n
  {
    if n >= 10 {
      ParseNatToString(n / 10);
      var s := NatToString(n);
      assert s[..|s| - 1] == NatToString(n / 10);
    }
  }

  /** Decimal printing of an int is undone by parsing it back. */
  lemma ItoaRoundTrip(n: int)
    ensures Atoi(Itoa(n)) == Some(n)
  {
    var s := Itoa(n);
    if n < 0 {
      ParseNatToString(-n);
      assert s[1..] == NatToString(-n);
      assert |s| > 1 && s[0] == '-' && AllDigits(s[1..]);
    } else {
      ParseNatToString(n);
      assert s == NatToString(n);
      assert IsDigit(s[0]);
    }
  }

  /** `Itoa` never yields a colon or a bracket, so it is a valid port text
      for `net.SplitHostPort`. */
  lemma ItoaHasNoDelimiters(n: int)
    ensures ':' !in Itoa(n) && '[' !in Itoa(n) && ']' !in Itoa(n)
  {
    var s := Itoa(n);
    if n < 0 {
      assert forall i :: 1 <= i < |s| ==> IsDigit(s[i]) by {
        assert s[1..] == NatToString(-n);
        forall i | 1 <= i < |s| ensures IsDigit(s[i]) { assert s[i] == s[1..][i - 1]; }
      }
    }
  }
}

=== FILE: ws_mux.dfy ===
/** The shared-port HTTP route multiplexer (core/sing/ws_mux.go).

    A `Manager` keeps one `Server` per (listen address, port) and a binding
    from each tag to the route it registered. A server's route table maps a
    normalised (host, path) key, where "*" is a wildcard, to a backend
    address and tag. Every manager operation is one atomic transition on
    these maps. An accepted connection is routed by sniffing its first HTTP
    header block and looking the request's host and path up in specificity
    order. */
module WsMux {
  import opened Base
  import opened Strings
  import Net

  type Port = p: int | 0 <= p < 0x1_0000

  /** Identifies one shared listener. */
  datatype MuxKey = MuxKey(listenIP: string, port: Port)

  /** A route's match key: normalised host and path, "*" matching anything. */
  datatype RouteKey = RouteKey(host: string, path: string)

  datatype Route = Route(backendAddr: string, tag: string)

  /** Where the route registered under a tag lives. */
  datatype TagBinding = TagBinding(key: MuxKey, route: RouteKey)

  /** One listener and its route table. `serial` tells apart listeners that
      were opened at different times on the same key. */
  datatype Server = Server(key: MuxKey, serial: nat, routes: map<RouteKey, Route>)

  datatype Manager = Manager(
    servers: map<MuxKey, Server>,
    tagMap: map<string, TagBinding>,
    nextSerial: nat)

  datatype MuxError =
    | ListenFailed(reason: string)
    | ServerNotFound
    | RouteConflict(host: string, path: string, usedBy: string)

  /** What opening a listening socket did. */
  datatype ListenOutcome = Listening | ListenError(reason: string)

  const Wildcard: string := "*"

  // ---------------------------------------------------------------------
  // Registry invariant
  // ---------------------------------------------------------------------

  /** The tag's binding names a live route that carries the same tag. */
  predicate BindingLive(m: Manager, t: string)
    requires t in m.tagMap
  {
    var b := m.tagMap[t];
    && b.key in m.servers
    && b.route in m.servers[b.key].routes
    && m.servers[b.key].routes[b.route].tag == t
  }

  /** Servers are filed under their own key with a serial already handed
      out, and every tag binding points at an existing route of its own. */
  predicate Valid(m: Manager) {
    && (forall k :: k in m.servers ==> m.servers[k].key == k && m.servers[k].serial < m.nextSerial)
    && (forall t :: t in m.tagMap ==> BindingLive(m, t))
  }

  function NewManager(): (m: Manager)
    ensures Valid(m)
    ensures |m.servers| == 0 && |m.tagMap| == 0
  {
    Manager(map[], map[], 0)
  }

  // ---------------------------------------------------------------------
  // Ensure
  // ---------------------------------------------------------------------

  datatype Ensured = Ensured(m: Manager, server: Result<Server, MuxError>)

  /** Returns the server on (listenIP, port), opening a listener with an
      empty route table when there is none. */
  function Ensure(m: Manager, listenIP: string, port: Port, listen: ListenOutcome): (r: Ensured)
    ensures MuxKey(listenIP, port) in m.servers ==>
      r.m == m && r.server == Ok(m.servers[MuxKey(listenIP, port)])
    ensures MuxKey(listenIP, port) !in m.servers && listen.ListenError? ==>
      r.m == m && r.server == Err(ListenFailed(listen.reason))
    ensures MuxKey(listenIP, port) !in m.servers && listen.Listening? ==>
      && r.server.Ok?
      && r.server.value.key == MuxKey(listenIP, port)
      && |r.server.value.routes| == 0
      && r.m.servers == m.servers[MuxKey(listenIP, port) := r.server.value]
      && |r.m.servers| == |m.servers| + 1
      && r.m.tagMap == m.tagMap
  {
    var key := MuxKey(listenIP, port);
    if key in m.servers then Ensured(m, Ok(m.servers[key]))
    else match listen
      case ListenError(e) => Ensured(m, Err(ListenFailed(e)))
      case Listening =>
        var s := Server(key, m.nextSerial, map[]);
        Ensured(Manager(m.servers[key := s], m.tagMap, m.nextSerial + 1), Ok(s))
  }

  /** A second Ensure on the same key returns the same server and changes
      nothing, whatever the listen outcome. */
  lemma EnsureIdempotent(m: Manager, listenIP: string, port: Port, l1: ListenOutcome, l2: ListenOutcome)
    requires Ensure(m, listenIP, port, l1).server.Ok?
    ensures var r1 := Ensure(m, listenIP, port, l1);
      Ensure(r1.m, listenIP, port, l2) == r1
  {
  }

  /** A newly opened server has a serial no live server has, and the
      registry stays valid. */
  lemma EnsureKeepsValid(m: Manager, listenIP: string, port: Port, listen: ListenOutcome)
    requires Valid(m)
    ensures Valid(Ensure(m, listenIP, port, listen).m)
    ensures var r := Ensure(m, listenIP, port, listen);
      MuxKey(listenIP, port) !in m.servers && r.server.Ok? ==>
        forall k :: k in m.servers ==> m.servers[k].serial != r.server.value.serial
  {
    var r := Ensure(m, listenIP, port, listen);
    forall t | t in r.m.tagMap
      ensures BindingLive(r.m, t)
    {
      assert BindingLive(m, t);
    }
  }

  // ---------------------------------------------------------------------
  // Register
  // ---------------------------------------------------------------------

  datatype Registered = Registered(m: Manager, err: Option<MuxError>)

  /** Binds `rkey` on the server at `key` to (backend, tag) unless the
      server is missing or the exact key is taken. */
  function Bind(m: Manager, tag: string, key: MuxKey, rkey: RouteKey, backendAddr: string): (r: Registered)
    ensures key !in m.servers ==> r == Registered(m, Some(ServerNotFound))
    ensures key in m.servers && rkey in m.servers[key].routes ==>
      r == Registered(m, Some(RouteConflict(rkey.host, rkey.path, m.servers[key].routes[rkey].tag)))
    ensures key in m.servers && rkey !in m.servers[key].routes ==>
      && r.err.None?
      && r.m.servers.Keys == m.servers.Keys
      && (forall k :: k in m.servers && k != key ==> r.m.servers[k] == m.servers[k])
      && r.m.servers[key].key == m.servers[key].key
      && r.m.servers[key].serial == m.servers[key].serial
      && r.m.servers[key].routes == m.servers[key].routes[rkey := Route(backendAddr, tag)]
      && |r.m.servers[key].routes| == |m.servers[key].routes| + 1
      && r.m.tagMap == m.tagMap[tag := TagBinding(key, rkey)]
      && r.m.nextSerial == m.nextSerial
  {
    if key !in m.servers then Registered(m, Some(ServerNotFound))
    else
      var s := m.servers[key];
      if rkey in s.routes then
        Registered(m, Some(RouteConflict(rkey.host, rkey.path, s.routes[rkey].tag)))
      else
        var s' := s.(routes := s.routes[rkey := Route(backendAddr, tag)]);
        Registered(Manager(m.servers[key := s'], m.tagMap[tag := TagBinding(key, rkey)], m.nextSerial), None)
  }

  /** The key `Register` files a route under: the host is normalised, the
      path is taken as given except that "" becomes "/". */
  function RegisteredKey(host: string, path: string): RouteKey {
    RouteKey(NormalizeHost(host), if path == "" then "/" else path)
  }

  /** `Register` as the source writes it. */
  function Register(m: Manager, tag: string, listenIP: string, port: Port, host: string, path: string, backendAddr: string): (r: Registered)
    ensures MuxKey(listenIP, port) !in m.servers ==> r == Registered(m, Some(ServerNotFound))
    ensures r.err.Some? ==> r.m == m
    ensures r.err.None? ==>
      && tag in r.m.tagMap
      && r.m.tagMap[tag].key == MuxKey(listenIP, port)
      && r.m.tagMap[tag].route.host == NormalizeHost(host)
      && (path == "" ==> r.m.tagMap[tag].route.path == "/")
      && (path != "" ==> r.m.tagMap[tag].route.path == path)
      && MuxKey(listenIP, port) in r.m.servers
      && r.m.tagMap[tag].route in r.m.servers[MuxKey(listenIP, port)].routes
      && r.m.servers[MuxKey(listenIP, port)].routes[r.m.tagMap[tag].route] == Route(backendAddr, tag)
    ensures var key, rkey := MuxKey(listenIP, port), RegisteredKey(host, path);
      key in m.servers ==> (r.err.None? <==> rkey !in m.servers[key].routes)
    ensures var key, rkey := MuxKey(listenIP, port), RegisteredKey(host, path);
      key in m.servers && rkey in m.servers[key].routes ==>
        r.err == Some(RouteConflict(rkey.host, rkey.path, m.servers[key].routes[rkey].tag))
    ensures var key, rkey := MuxKey(listenIP, port), RegisteredKey(host, path);
      r.err.None? ==>
        && r.m.servers.Keys == m.servers.Keys
        && (forall k :: k in m.servers && k != key ==> r.m.servers[k] == m.servers[k])
        && r.m.servers[key].routes == m.servers[key].routes[rkey := Route(backendAddr, tag)]
        && r.m.tagMap == m.tagMap[tag := TagBinding(key, rkey)]
        && r.m.nextSerial == m.nextSerial
  {
    Bind(m, tag, MuxKey(listenIP, port), RegisteredKey(host, path), backendAddr)
  }

  /** `Register` with the path normalised the way connections are. */
  function RegisterNormalized(m: Manager, tag: string, listenIP: string, port: Port, host: string, path: string, backendAddr: string): (r: Registered)
    ensures MuxKey(listenIP, port) !in m.servers ==> r == Registered(m, Some(ServerNotFound))
    ensures r.err.Some? ==> r.m == m
    ensures var key, rkey := MuxKey(listenIP, port), RouteKey(NormalizeHost(host), NormalizePath(path));
      key in m.servers ==> (r.err.None? <==> rkey !in m.servers[key].routes)
    ensures var key, rkey := MuxKey(listenIP, port), RouteKey(NormalizeHost(host), NormalizePath(path));
      key in m.servers && rkey in m.servers[key].routes ==>
        r.err == Some(RouteConflict(rkey.host, rkey.path, m.servers[key].routes[rkey].tag))
    ensures var key, rkey := MuxKey(listenIP, port), RouteKey(NormalizeHost(host), NormalizePath(path));
      r.err.None? ==>
        && r.m.servers.Keys == m.servers.Keys
        && (forall k :: k in m.servers && k != key ==> r.m.servers[k] == m.servers[k])
        && r.m.servers[key].routes == m.servers[key].routes[rkey := Route(backendAddr, tag)]
        && r.m.tagMap == m.tagMap[tag := TagBinding(key, rkey)]
        && r.m.nextSerial == m.nextSerial
    ensures r.err.None? ==>
      && MuxKey(listenIP, port) in r.m.servers
      && RouteKey(NormalizeHost(host), NormalizePath(path)) in r.m.servers[MuxKey(listenIP, port)].routes
      && r.m.servers[MuxKey(listenIP, port)].routes[RouteKey(NormalizeHost(host), NormalizePath(path))] == Route(backendAddr, tag)
  {
    Bind(m, tag, MuxKey(listenIP, port), RouteKey(NormalizeHost(host), NormalizePath(path)), backendAddr)
  }

  /** A failed registration names the tag that already holds the exact key,
      and that route keeps answering lookups for it. */
  lemma ConflictKeepsPriorRoute(m: Manager, tag: string, listenIP: string, port: Port, host: string, path: string, backendAddr: string)
    requires MuxKey(listenIP, port) in m.servers
    requires RegisteredKey(host, path) in m.servers[MuxKey(listenIP, port)].routes
    ensures var r := Register(m, tag, listenIP, port, host, path, backendAddr);
      var prior := m.servers[MuxKey(listenIP, port)].routes[RegisteredKey(host, path)];
      && r.err == Some(RouteConflict(RegisteredKey(host, path).host, RegisteredKey(host, path).path, prior.tag))
      && Lookup(r.m.servers[MuxKey(listenIP, port)].routes, RegisteredKey(host, path).host, RegisteredKey(host, path).path) == Some(prior)
  {
  }

  lemma BindKeepsValid(m: Manager, tag: string, key: MuxKey, rkey: RouteKey, backendAddr: string)
    requires Valid(m)
    ensures Valid(Bind(m, tag, key, rkey, backendAddr).m)
  {
    var r := Bind(m, tag, key, rkey, backendAddr);
    if r.err.None? {
      forall t | t in r.m.tagMap
        ensures BindingLive(r.m, t)
      {
        if t != tag {
          assert BindingLive(m, t);
          var b := m.tagMap[t];
          assert b.route in m.servers[b.key].routes;
          if b.key == key {
            assert b.route != rkey;
          }
        }
      }
    }
  }

  // ---------------------------------------------------------------------
  // Unregister and CloseAll
  // ---------------------------------------------------------------------

  /** The manager after the call, and the key of the server it stopped. */
  datatype Unregistered = Unregistered(m: Manager, stopped: Option<MuxKey>)

  /** Removes the route bound to `tag`, and the server too when that was its
      last route. */
  function Unregister(m: Manager, tag: string): (r: Unregistered)
    ensures tag !in m.tagMap ==> r == Unregistered(m, None)
    ensures tag in m.tagMap ==>
      var b := m.tagMap[tag];
      && r.m.tagMap == m.tagMap - {tag}
      && r.m.nextSerial == m.nextSerial
      && r.m.servers.Keys <= m.servers.Keys
      && (forall k :: k in m.servers && k != b.key ==> k in r.m.servers && r.m.servers[k] == m.servers[k])
      && (b.key in r.m.servers ==>
            && r.m.servers[b.key] == m.servers[b.key].(routes := m.servers[b.key].routes - {b.route})
            && |r.m.servers[b.key].routes| > 0)
      && (r.stopped.Some? <==> b.key in m.servers && b.key !in r.m.servers)
      && (r.stopped.Some? ==> r.stopped.value == b.key && m.servers[b.key].routes.Keys <= {b.route})
  {
    if tag !in m.tagMap then Unregistered(m, None)
    else
      var b := m.tagMap[tag];
      var tagMap' := m.tagMap - {tag};
      if b.key !in m.servers then Unregistered(m.(tagMap := tagMap'), None)
      else
        var s := m.servers[b.key];
        var routes' := s.routes - {b.route};
        if |routes'| == 0 then
          Unregistered(Manager(m.servers - {b.key}, tagMap', m.nextSerial), Some(b.key))
        else
          Unregistered(Manager(m.servers[b.key := s.(routes := routes')], tagMap', m.nextSerial), None)
  }

  lemma UnregisterKeepsValid(m: Manager, tag: string)
    requires Valid(m)
    ensures Valid(Unregister(m, tag).m)
  {
    var r := Unregister(m, tag);
    if tag in m.tagMap {
      var b := m.tagMap[tag];
      assert BindingLive(m, tag);
      forall t | t in r.m.tagMap
        ensures BindingLive(r.m, t)
      {
        assert BindingLive(m, t);
        var bt := m.tagMap[t];
        if bt.key == b.key {
          assert bt.route != b.route by {
            assert m.servers[b.key].routes[bt.route].tag == t;
          }
          assert bt.route in m.servers[b.key].routes - {b.route};
        }
      }
    }
  }

  /** Registering a fresh tag and then unregistering it restores the tag
      bindings and the route table; a server that was empty before the
      registration is stopped. */
  lemma RegisterThenUnregister(m: Manager, tag: string, listenIP: string, port: Port, host: string, path: string, backendAddr: string)
    requires Valid(m) && tag !in m.tagMap
    requires Register(m, tag, listenIP, port, host, path, backendAddr).err.None?
    ensures var key := MuxKey(listenIP, port);
      var u := Unregister(Register(m, tag, listenIP, port, host, path, backendAddr).m, tag);
      && u.m.tagMap == m.tagMap
      && (|m.servers[key].routes| > 0 ==> u.stopped.None? && u.m.servers == m.servers)
      && (|m.servers[key].routes| == 0 ==> u.stopped == Some(key) && u.m.servers == m.servers - {key})
  {
    BindThenUnregister(m, tag, MuxKey(listenIP, port), RegisteredKey(host, path), backendAddr);
  }

  lemma BindThenUnregister(m: Manager, tag: string, key: MuxKey, rkey: RouteKey, backendAddr: string)
    requires tag !in m.tagMap && key in m.servers && rkey !in m.servers[key].routes
    ensures var u := Unregister(Bind(m, tag, key, rkey, backendAddr).m, tag);
      && u.m.tagMap == m.tagMap
      && (|m.servers[key].routes| > 0 ==> u.stopped.None? && u.m.servers == m.servers)
      && (|m.servers[key].routes| == 0 ==> u.stopped == Some(key) && u.m.servers == m.servers - {key})
  {
    var old_s := m.servers[key];
    var r := Bind(m, tag, key, rkey, backendAddr);
    var s' := r.m.servers[key];
    assert s' == old_s.(routes := old_s.routes[rkey := Route(backendAddr, tag)]);
    assert r.m.tagMap[tag] == TagBinding(key, rkey);
    var u := Unregister(r.m, tag);
    assert m.tagMap[tag := TagBinding(key, rkey)] - {tag} == m.tagMap;
    assert u.m.tagMap == m.tagMap;
    var left := s'.routes - {rkey};
    assert left == old_s.routes;
    if |old_s.routes| > 0 {
      assert u.m.servers == r.m.servers[key := old_s];
      assert r.m.servers[key := old_s] == m.servers;
    } else {
      assert u.m.servers == r.m.servers - {key};
      assert r.m.servers - {key} == m.servers - {key};
    }
  }

  /** Once the last route of a listener is removed, ensuring that key again
      opens a new listener, with an empty table and a new serial. */
  lemma ReopenAfterLastRoute(m: Manager, tag: string, listen: ListenOutcome)
    requires Valid(m)
    requires Unregister(m, tag).stopped.Some?
    requires listen.Listening?
    ensures var u := Unregister(m, tag);
      var k := u.stopped.value;
      var e := Ensure(u.m, k.listenIP, k.port, listen);
      && e.server.Ok?
      && |e.server.value.routes| == 0
      && e.server.value.serial != m.servers[k].serial
  {
    var u := Unregister(m, tag);
    var k := u.stopped.value;
    assert m.servers[k].serial < m.nextSerial;
  }

  datatype Closed = Closed(m: Manager, stopped: set<MuxKey>)

  /** Stops every server and forgets every route and tag. */
  function CloseAll(m: Manager): (r: Closed)
    ensures |r.m.servers| == 0 && |r.m.tagMap| == 0
    ensures r.stopped == m.servers.Keys
    ensures Valid(r.m)
    ensures Valid(m) ==> r.m.nextSerial >= m.nextSerial
  {
    Closed(Manager(map[], map[], m.nextSerial), m.servers.Keys)
  }

  // ---------------------------------------------------------------------
  // Normalisation
  // ---------------------------------------------------------------------

  /** Lower-cases a host and drops its port when it splits as host:port. */
  function NormalizeHost(h: string): (r: string)
    ensures h == "" ==> r == ""
    ensures IsLower(r)
    ensures |r| <= |h|
    ensures Net.SplitHostPort(h).Some? ==> r == ToLower(Net.SplitHostPort(h).value.0)
    ensures Net.SplitHostPort(h).None? ==> r == ToLower(h)
  {
    if h == "" then ""
    else if ':' in h && Net.SplitHostPort(h).Some? then ToLower(Net.SplitHostPort(h).value.0)
    else ToLower(h)
  }

  /** A Host header with a port normalises to the lower-cased host alone;
      one without a colon is only lower-cased. */
  lemma NormalizeHostStripsPort(host: string, port: Port)
    requires '[' !in host && ']' !in host
    ensures NormalizeHost(Net.JoinHostPort(host, Itoa(port))) == ToLower(host)
    ensures ':' !in host ==> NormalizeHost(host) == ToLower(host)
  {
    ItoaHasNoDelimiters(port);
    Net.SplitJoinHostPort(host, Itoa(port));
  }

  /** A bracketed IPv6 literal without a port does not split, so it is only
      lower-cased, brackets and all. */
  lemma NormalizeHostKeepsBareIPv6()
    ensures NormalizeHost("[::1]") == "[::1]"
  {
    var h := "[::1]";
    LastIndexOfIs(h, ':', 2);
    IndexOfIs(h, ']', 4);
    assert Net.SplitHostPort(h).None?;
  }

  /** Gives a path a leading "/", keeping the wildcard "*". */
  function NormalizePath(p: string): (r: string)
    ensures r == Wildcard || HasPrefix(r, "/")
    ensures p == "" ==> r == "/"
    ensures HasSuffix(r, p) && |r| <= |p| + 1
  {
    if p == "" then "/"
    else if !HasPrefix(p, "/") && p != Wildcard then "/" + p
    else p
  }

  /** Paths already in normal form are exactly those left alone. */
  lemma NormalizePathFixedPoints(p: string)
    ensures NormalizePath(p) == p <==> p == Wildcard || HasPrefix(p, "/")
    ensures NormalizePath(NormalizePath(p)) == NormalizePath(p)
  {
  }

  // ---------------------------------------------------------------------
  // Lookup
  // ---------------------------------------------------------------------

  /** The keys a request for (host, path) may match, most specific first. */
  function Candidates(host: string, path: string): seq<RouteKey> {
    [RouteKey(host, path), RouteKey(Wildcard, path), RouteKey(host, Wildcard), RouteKey(Wildcard, Wildcard)]
  }

  /** The route of the first key of `keys` that the table holds. */
  function FirstMatch(routes: map<RouteKey, Route>, keys: seq<RouteKey>): Option<Route>
    decreases |keys|
  {
    if |keys| == 0 then None
    else if keys[0] in routes then Some(routes[keys[0]])
    else FirstMatch(routes, keys[1..])
  }

  /** FirstMatch finds the earliest listed key present, and nothing when no
      listed key is present. */
  lemma {:induction false} FirstMatchIsEarliest(routes: map<RouteKey, Route>, keys: seq<RouteKey>)
    ensures FirstMatch(routes, keys).None? <==> forall i :: 0 <= i < |keys| ==> keys[i] !in routes
    ensures FirstMatch(routes, keys).Some? ==>
      exists i :: 0 <= i < |keys| && keys[i] in routes && routes[keys[i]] == FirstMatch(routes, keys).value
        && forall j :: 0 <= j < i ==> keys[j] !in routes
    decreases |keys|
  {
    if |keys| > 0 && keys[0] !in routes {
      FirstMatchIsEarliest(routes, keys[1..]);
      if FirstMatch(routes, keys[1..]).Some? {
        var i :| 0 <= i < |keys| - 1 && keys[1..][i] in routes
          && routes[keys[1..][i]] == FirstMatch(routes, keys[1..]).value
          && forall j :: 0 <= j < i ==> keys[1..][j] !in routes;
        assert keys[i + 1] in routes;
        assert forall j :: 0 <= j < i + 1 ==> keys[j] !in routes by {
          forall j | 0 <= j < i + 1 ensures keys[j] !in routes {
            if j > 0 { assert keys[j] == keys[1..][j - 1]; }
          }
        }
      } else {
        forall i | 0 <= i < |keys| ensures keys[i] !in routes {
          if i > 0 { assert keys[i] == keys[1..][i - 1]; }
        }
      }
    } else if |keys| > 0 {
      assert keys[0] in routes;
    }
  }

  /** The route-table lookup of a connection: exact host and path, then any
      host with the path, then the host with any path, then any host with
      any path. */
  function Lookup(routes: map<RouteKey, Route>, host: string, path: string): (r: Option<Route>)
    ensures r == FirstMatch(routes, Candidates(host, path))
  {
    var c := Candidates(host, path);
    assert c[1..] == [c[1], c[2], c[3]] && c[1..][1..] == [c[2], c[3]];
    assert c[1..][1..][1..] == [c[3]] && c[1..][1..][1..][1..] == [];
    assert FirstMatch(routes, c[1..][1..][1..]) == if c[3] in routes then Some(routes[c[3]]) else None;
    assert FirstMatch(routes, c[1..][1..]) ==
      if c[2] in routes then Some(routes[c[2]]) else FirstMatch(routes, c[1..][1..][1..]);
    assert FirstMatch(routes, c[1..]) ==
      if c[1] in routes then Some(routes[c[1]]) else FirstMatch(routes, c[1..][1..]);
    if RouteKey(host, path) in routes then Some(routes[RouteKey(host, path)])
    else if RouteKey(Wildcard, path) in routes then Some(routes[RouteKey(Wildcard, path)])
    else if RouteKey(host, Wildcard) in routes then Some(routes[RouteKey(host, Wildcard)])
    else if RouteKey(Wildcard, Wildcard) in routes then Some(routes[RouteKey(Wildcard, Wildcard)])
    else None
  }

  /** The four-route example: each request reaches the most specific route
      that covers it. */
  lemma SpecificityExample(r1: Route, r2: Route, r3: Route, r4: Route)
    ensures var routes := map[RouteKey("a.com", "/x") := r1, RouteKey("*", "/x") := r2,
                              RouteKey("a.com", "*") := r3, RouteKey("*", "*") := r4];
      && Lookup(routes, "a.com", "/x") == Some(r1)
      && Lookup(routes, "b.com", "/x") == Some(r2)
      && Lookup(routes, "a.com", "/y") == Some(r3)
      && Lookup(routes, "b.com", "/y") == Some(r4)
  {
  }

  /** A route registered with normalisation is found by the exact lookup of
      a connection carrying the same host and path. */
  lemma RegisterNormalizedIsReachable(m: Manager, tag: string, listenIP: string, port: Port, host: string, path: string, backendAddr: string)
    requires RegisterNormalized(m, tag, listenIP, port, host, path, backendAddr).err.None?
    ensures var r := RegisterNormalized(m, tag, listenIP, port, host, path, backendAddr);
      Lookup(r.m.servers[MuxKey(listenIP, port)].routes, NormalizeHost(host), NormalizePath(path))
        == Some(Route(backendAddr, tag))
  {
  }

  /** As written, `Register` files a path without a leading "/" under that
      path, which no normalised request path equals; such a route is never
      the exact match of any connection. */
  lemma RegisterUnnormalizedUnreachable(host: string, backendAddr: string, requestPath: string)
    ensures var m := Ensure(NewManager(), "0.0.0.0", 443, Listening).m;
      var r := Register(m, "t1", "0.0.0.0", 443, host, "ws", backendAddr);
      && r.err.None?
      && Lookup(r.m.servers[MuxKey("0.0.0.0", 443)].routes, NormalizeHost(host), NormalizePath(requestPath)) == None
  {
    var key := MuxKey("0.0.0.0", 443);
    var m := Ensure(NewManager(), "0.0.0.0", 443, Listening).m;
    assert key in m.servers && m.servers[key].routes == map[];
    var rk := RegisteredKey(host, "ws");
    var r := Register(m, "t1", "0.0.0.0", 443, host, "ws", backendAddr);
    assert r.m.servers[key].routes == map[rk := Route(backendAddr, "t1")];
    var p := NormalizePath(requestPath);
    assert p != "ws" by {
      if p != Wildcard {
        assert p[0] == '/';
      }
    }
    LookupSingleRoute(rk, Route(backendAddr, "t1"), NormalizeHost(host), p);
  }

  /** A table of one route whose path is neither the request path nor the
      wildcard answers no lookup for that path. */
  lemma LookupSingleRoute(rk: RouteKey, v: Route, host: string, path: string)
    requires rk.path != path && rk.path != Wildcard
    ensures Lookup(map[rk := v], host, path) == None
  {
  }

  // ---------------------------------------------------------------------
  // Connection handling: header framing and routing
  // ---------------------------------------------------------------------

  const MaxHeaderBytes: int := 64 * 1024
  const LF: Byte := 10
  /** CR LF CR LF, the end of an HTTP/1.1 header section (section 2.1 of
      RFC 9112). */
  const HeaderEnd: seq<Byte> := [13, 10, 13, 10]

  /** One past the next LF at or after `pos`, if any. */
  function NextLineEnd(s: seq<Byte>, pos: nat): (r: Option<nat>)
    requires pos <= |s|
    ensures r.Some? ==> pos < r.value <= |s| && s[r.value - 1] == LF
    ensures r.Some? ==> forall j :: pos <= j < r.value - 1 ==> s[j] != LF
    ensures r.None? ==> forall j :: pos <= j < |s| ==> s[j] != LF
    decreases |s| - pos
  {
    if pos == |s| then None
    else if s[pos] == LF then Some(pos + 1)
    else NextLineEnd(s, pos + 1)
  }

  datatype Framing = Framed(raw: seq<Byte>) | TooLarge | ReadError

  /** The read loop of `readHTTPHeader` from buffer length `pos`: append one
      whole line, fail once more than 64 KiB are buffered, stop once the
      buffer holds CR LF CR LF. A stream that ends mid-line is a read
      error. */
  function FrameFrom(s: seq<Byte>, pos: nat): (r: Framing)
    requires pos <= |s|
    ensures r.Framed? ==> HasPrefix(s, r.raw) && pos < |r.raw| <= MaxHeaderBytes
    decreases |s| - pos
  {
    match NextLineEnd(s, pos)
    case None => ReadError
    case Some(e) =>
      if e > MaxHeaderBytes then TooLarge
      else if Contains(s[..e], HeaderEnd) then Framed(s[..e])
      else FrameFrom(s, e)
  }

  /** The header block a client stream `s` opens with. */
  function FrameHeader(s: seq<Byte>): Framing {
    FrameFrom(s, 0)
  }

  /** A CR LF CR LF of `s` ends at `e`. */
  predicate EndsHeader(s: seq<Byte>, e: int) {
    4 <= e <= |s| && s[e - 4..e] == HeaderEnd
  }

  function FirstHeaderEndFrom(s: seq<Byte>, e: nat): (r: Option<nat>)
    requires forall e' :: 0 <= e' < e ==> !EndsHeader(s, e')
    ensures r.Some? ==> EndsHeader(s, r.value) && forall e' :: 0 <= e' < r.value ==> !EndsHeader(s, e')
    ensures r.None? ==> forall e' :: 0 <= e' <= |s| ==> !EndsHeader(s, e')
    decreases |s| + 1 - e
  {
    if e > |s| then None
    else if EndsHeader(s, e) then Some(e)
    else FirstHeaderEndFrom(s, e + 1)
  }

  /** Where the first CR LF CR LF of `s` ends. */
  function FirstHeaderEnd(s: seq<Byte>): (r: Option<nat>)
    ensures r.Some? ==> EndsHeader(s, r.value) && forall e' :: 0 <= e' < r.value ==> !EndsHeader(s, e')
    ensures r.None? ==> forall e' :: 0 <= e' <= |s| ==> !EndsHeader(s, e')
  {
    FirstHeaderEndFrom(s, 0)
  }

  /** The stream's framing in one statement: the header is the prefix up to
      the first CR LF CR LF if that ends within 64 KiB; otherwise the read
      fails as too large if a line ends past 64 KiB, and as a read error if
      the stream stops first. */
  predicate FramingSpec(s: seq<Byte>, f: Framing) {
    var fits := FirstHeaderEnd(s).Some? && FirstHeaderEnd(s).value <= MaxHeaderBytes;
    && (f.Framed? <==> fits)
    && (f.Framed? ==> f.raw == s[..FirstHeaderEnd(s).value])
    && (f == TooLarge <==> !fits && exists j :: MaxHeaderBytes <= j < |s| && s[j] == LF)
  }

  /** A header end is the end of a line. */
  lemma HeaderEndsWithLF(s: seq<Byte>)
    ensures forall e :: EndsHeader(s, e) ==> s[e - 1] == LF
  {
    forall e | EndsHeader(s, e)
      ensures s[e - 1] == LF
    {
      assert s[e - 4..e][3] == s[e - 1];
    }
  }

  /** Within the line that ends at `e`, the buffer holds CR LF CR LF exactly
      when one ends at `e`, provided none ended by `pos`. */
  lemma LineHoldsHeaderEnd(s: seq<Byte>, pos: nat, e: nat)
    requires pos < e <= |s| && s[e - 1] == LF
    requires forall j :: pos <= j < e - 1 ==> s[j] != LF
    requires forall e' :: 0 <= e' <= pos ==> !EndsHeader(s, e')
    ensures Contains(s[..e], HeaderEnd) <==> EndsHeader(s, e)
    ensures forall e' :: 0 <= e' < e ==> !EndsHeader(s, e')
  {
    HeaderEndsWithLF(s);
    assert forall e' :: pos < e' < e ==> !EndsHeader(s, e');
    if Contains(s[..e], HeaderEnd) {
      var i :| OccursAt(s[..e], HeaderEnd, i);
      assert s[i..i + 4] == s[..e][i..i + 4];
      assert EndsHeader(s, i + 4);
    }
    if EndsHeader(s, e) {
      assert s[..e][e - 4..e] == s[e - 4..e];
      assert OccursAt(s[..e], HeaderEnd, e - 4);
    }
  }

  /** The stream stops before the next line ends: a read error. */
  lemma SpecAtEndOfStream(s: seq<Byte>, pos: nat)
    requires pos <= |s| && pos <= MaxHeaderBytes
    requires forall e' :: 0 <= e' <= pos ==> !EndsHeader(s, e')
    requires forall j :: pos <= j < |s| ==> s[j] != LF
    ensures FramingSpec(s, ReadError)
  {
    HeaderEndsWithLF(s);
    assert forall e' :: pos < e' <= |s| ==> !EndsHeader(s, e');
    assert FirstHeaderEnd(s).None?;
  }

  /** The next line takes the buffer past 64 KiB without an earlier header
      end: too large. */
  lemma SpecPastLimit(s: seq<Byte>, e: nat)
    requires MaxHeaderBytes < e <= |s| && s[e - 1] == LF
    requires forall e' :: 0 <= e' < e ==> !EndsHeader(s, e')
    ensures FramingSpec(s, TooLarge)
  {
    var f := FirstHeaderEnd(s);
    assert f.Some? ==> f.value >= e;
    assert MaxHeaderBytes <= e - 1 < |s| && s[e - 1] == LF;
  }

  /** The next line completes the first header end within 64 KiB. */
  lemma SpecFramed(s: seq<Byte>, e: nat)
    requires 0 < e <= MaxHeaderBytes && EndsHeader(s, e)
    requires forall e' :: 0 <= e' < e ==> !EndsHeader(s, e')
    ensures FramingSpec(s, Framed(s[..e]))
  {
    assert FirstHeaderEnd(s) == Some(e);
  }

  lemma {:induction false} FrameFromMeetsSpec(s: seq<Byte>, pos: nat)
    requires pos <= |s| && pos <= MaxHeaderBytes
    requires forall e' :: 0 <= e' <= pos ==> !EndsHeader(s, e')
    ensures FramingSpec(s, FrameFrom(s, pos))
    decreases |s| - pos
  {
    match NextLineEnd(s, pos)
    case None =>
      SpecAtEndOfStream(s, pos);
    case Some(e) =>
      LineHoldsHeaderEnd(s, pos, e);
      if e > MaxHeaderBytes {
        SpecPastLimit(s, e);
      } else if Contains(s[..e], HeaderEnd) {
        SpecFramed(s, e);
      } else {
        FrameFromMeetsSpec(s, e);
      }
  }

  /** `readHTTPHeader` frames every stream as `FramingSpec` says. */
  lemma FrameHeaderMeetsSpec(s: seq<Byte>)
    ensures FramingSpec(s, FrameHeader(s))
  {
    FrameFromMeetsSpec(s, 0);
  }

  /** The host and path `http.ReadRequest` reports for a header block. */
  datatype Request = Request(host: string, path: string)

  /** `http.ReadRequest`, as an oracle: a header block's request, or nothing
      when it does not parse. */
  type RequestParser = seq<Byte> -> Option<Request>

  datatype Header = Header(raw: seq<Byte>, host: string, path: string)

  /** `readHTTPHeader`: the framed block, byte for byte, with the request's
      host and path; an empty path is reported as "/". */
  function ReadHTTPHeader(s: seq<Byte>, parse: RequestParser): (r: Option<Header>)
    ensures r.None? <==> !FrameHeader(s).Framed? || parse(FrameHeader(s).raw).None?
    ensures r.Some? ==>
      && r.value.raw == FrameHeader(s).raw
      && HasPrefix(s, r.value.raw)
      && r.value.host == parse(r.value.raw).value.host
      && r.value.path != ""
      && (parse(r.value.raw).value.path != "" ==> r.value.path == parse(r.value.raw).value.path)
      && (parse(r.value.raw).value.path == "" ==> r.value.path == "/")
  {
    match FrameHeader(s)
    case Framed(raw) =>
      (match parse(raw)
       case None => None
       case Some(req) => Some(Header(raw, req.host, if req.path == "" then "/" else req.path)))
    case _ => None
  }

  /** What becomes of an accepted connection: dropped, or spliced to a
      backend that first receives `replay` and then the `rest` of the
      client's stream. */
  datatype ConnOutcome = Dropped | Forwarded(backendAddr: string, replay: seq<Byte>, rest: seq<Byte>)

  /** `handleConn` up to the splice: frame and parse the header, normalise
      host and path, look the route up, and replay the header to its
      backend. */
  function HandleConn(routes: map<RouteKey, Route>, s: seq<Byte>, parse: RequestParser): (r: ConnOutcome)
    ensures r.Forwarded? ==> r.replay + r.rest == s
    ensures r.Forwarded? <==>
      var h := ReadHTTPHeader(s, parse);
      h.Some? && Lookup(routes, NormalizeHost(h.value.host), NormalizePath(h.value.path)).Some?
    ensures r.Forwarded? ==>
      var h := ReadHTTPHeader(s, parse).value;
      && r.replay == h.raw
      && r.backendAddr == Lookup(routes, NormalizeHost(h.host), NormalizePath(h.path)).value.backendAddr
  {
    match ReadHTTPHeader(s, parse)
    case None => Dropped
    case Some(h) =>
      match Lookup(routes, NormalizeHost(h.host), NormalizePath(h.path))
      case None => Dropped
      case Some(route) => Forwarded(route.backendAddr, h.raw, s[|h.raw|..])
  }
}

=== FILE: ws_transport.dfy ===
/** How a panel client carries one API request (api/panel/ws_transport.go):
    over the persistent WebSocket channel while the breaker allows it, with
    one reconnecting retry, and otherwise over plain HTTP, which accepts
    only GET and POST.

    The network is an input: `TryEnv` says how each channel attempt's dial,
    write and read turn out, `HttpOutcome` what the HTTP client returned,
    and the JSON decoding of a channel reply is an oracle function. */
module WsTransport {
  import opened Base
  import opened Strings
  import opened Net
  import opened ChannelBreaker
  import opened Panel

  /** A request as sent over the channel: each header has one value. */
  datatype WsRequest = WsRequest(verb: string, path: string, headers: map<string, seq<string>>, body: seq<Byte>)

  /** A channel reply; its headers may be absent. */
  datatype WsResponse = WsResponse(status: int, headers: Option<map<string, seq<string>>>, body: seq<Byte>)

  /** The channel form of a request. */
  function ToWsRequest(verb: string, path: string, headers: map<string, string>, body: seq<Byte>): (r: WsRequest)
    ensures r.verb == verb && r.path == path && r.body == body
    ensures r.headers.Keys == headers.Keys
    ensures forall k :: k in headers ==> r.headers[k] == [headers[k]]
  {
    WsRequest(verb, path, map k | k in headers :: [headers[k]], body)
  }

  // ---------------------------------------------------------------------
  // The channel endpoint (wsURL)
  // ---------------------------------------------------------------------

  /** A channel URL: scheme, host with port, path and query parameters. */
  datatype Endpoint = Endpoint(scheme: string, host: string, path: string, query: map<string, string>)

  const DefaultWsPort: int := 51821

  /** "wss" for an "https" API host (in any letter case), "ws" otherwise;
      a configured scheme wins. */
  function ChannelScheme(apiScheme: string, wsScheme: string): (r: string)
    ensures wsScheme != "" ==> r == wsScheme
    ensures wsScheme == "" ==> (r == "wss" <==> EqualFold(apiScheme, "https"))
    ensures wsScheme == "" ==> (r == "ws" || r == "wss")
  {
    if wsScheme != "" then wsScheme else if EqualFold(apiScheme, "https") then "wss" else "ws"
  }

  /** The channel port: the configured one when positive, 51821 otherwise. */
  function ChannelPort(wsPort: int): (r: int)
    ensures r > 0
    ensures wsPort > 0 ==> r == wsPort
    ensures wsPort <= 0 ==> r == DefaultWsPort
  {
    if wsPort > 0 then wsPort else DefaultWsPort
  }

  /** The channel host: the configured one when set, else the API host's
      name. */
  function ChannelHost(hostname: string, wsHost: string): (r: string)
    ensures wsHost != "" ==> r == wsHost
    ensures wsHost == "" ==> r == hostname
  {
    if wsHost != "" then wsHost else hostname
  }

  /** The request path under an override URL's path: a path other than ""
      and "/" is a prefix, with its trailing slashes dropped. */
  function JoinPath(basePath: string, path: string): (r: string)
    ensures HasSuffix(r, path)
    ensures basePath == "" || basePath == "/" ==> r == path
    ensures basePath != "" && basePath != "/" ==>
      && HasPrefix(basePath, r[..|r| - |path|])
      && (|r| > |path| ==> r[|r| - |path| - 1] != '/')
      && (forall i :: |r| - |path| <= i < |basePath| ==> basePath[i] == '/')
  {
    if basePath != "" && basePath != "/" then
      var prefix := TrimRight(basePath, '/');
      assert (prefix + path)[..|prefix|] == prefix;
      prefix + path
    else path
  }

  /** `wsURL`: the channel endpoint for `path`. With an override URL its
      scheme and host are used as they are; otherwise they are derived from
      the API host and the partial overrides. The identity parameters are
      the query. */
  function WsURL(c: Client, path: string, parse: UrlParser): (r: Result<Endpoint, string>)
    ensures r.Ok? ==> r.value.query == c.queryParams
    ensures c.wsUrl != "" ==> (r.Ok? <==> parse(c.wsUrl).Ok?)
    ensures c.wsUrl != "" && r.Ok? ==>
      var base := parse(c.wsUrl).value;
      r.value.scheme == base.scheme && r.value.host == base.host && r.value.path == JoinPath(base.path, path)
    ensures c.wsUrl == "" ==> (r.Ok? <==> parse(c.apiHost).Ok? && parse(c.apiHost).value.hostname != "")
    ensures c.wsUrl == "" && parse(c.apiHost).Ok? && parse(c.apiHost).value.hostname == "" ==>
      r == Err("invalid ApiHost: " + c.apiHost)
    ensures c.wsUrl == "" && r.Ok? ==>
      var api := parse(c.apiHost).value;
      && r.value.scheme == ChannelScheme(api.scheme, c.wsScheme)
      && r.value.host == ChannelHost(api.hostname, c.wsHost) + ":" + Itoa(ChannelPort(c.wsPort))
      && r.value.path == path
  {
    if c.wsUrl != "" then
      match parse(c.wsUrl)
      case Err(e) => Err(e)
      case Ok(base) => Ok(Endpoint(base.scheme, base.host, JoinPath(base.path, path), c.queryParams))
    else
      match parse(c.apiHost)
      case Err(e) => Err(e)
      case Ok(api) =>
        if api.hostname == "" then Err("invalid ApiHost: " + c.apiHost)
        else
          var host := ChannelHost(api.hostname, c.wsHost) + ":" + Itoa(ChannelPort(c.wsPort));
          Ok(Endpoint(ChannelScheme(api.scheme, c.wsScheme), host, path, c.queryParams))
  }

  /** Without overrides, the channel listens on the API host's name at port
      51821, and the endpoint's host splits back into exactly those two. */
  lemma DefaultEndpointSplits(c: Client, path: string, parse: UrlParser)
    requires c.wsUrl == "" && c.wsScheme == "" && c.wsHost == "" && c.wsPort <= 0
    requires parse(c.apiHost).Ok?
    requires var h := parse(c.apiHost).value.hostname;
      h != "" && ':' !in h && '[' !in h && ']' !in h
    ensures var r := WsURL(c, path, parse);
      var api := parse(c.apiHost).value;
      && r.Ok?
      && SplitHostPort(r.value.host) == Some((api.hostname, "51821"))
      && (r.value.scheme == "wss" <==> EqualFold(api.scheme, "https"))
  {
    var api := parse(c.apiHost).value;
    ItoaHasNoDelimiters(DefaultWsPort);
    assert Itoa(DefaultWsPort) == "51821";
    SplitJoinHostPort(api.hostname, "51821");
    assert JoinHostPort(api.hostname, "51821") == api.hostname + ":" + "51821";
  }

  /** As written, an API host that is an IPv6 literal gives a channel
      endpoint whose host does not split into host and port, so the channel
      cannot be dialled. */
  lemma IPv6ApiHostDoesNotSplit(c: Client, path: string, parse: UrlParser)
    requires c.wsUrl == "" && c.wsHost == "" && c.wsPort <= 0
    requires parse(c.apiHost) == Ok(Url("https", "[::1]", "::1", ""))
    ensures WsURL(c, path, parse).Ok?
    ensures WsURL(c, path, parse).value.host == "::1:51821"
    ensures SplitHostPort(WsURL(c, path, parse).value.host).None?
  {
    assert Itoa(DefaultWsPort) == "51821";
    assert "::1" + ":" + "51821" == "::1:51821";
    UnbracketedIPv6DoesNotSplit();
  }

  /** "::1:51821" does not split: the part before its last colon holds a
      colon, and it is not bracketed. */
  lemma UnbracketedIPv6DoesNotSplit()
    ensures SplitHostPort("::1:51821").None?
  {
    var h := "::1:51821";
    LastIndexOfIs(h, ':', 3);
    assert h[..3][0] == ':';
  }

  /** `wsURL` with the host and port joined as `net.JoinHostPort` does,
      bracketing a host that holds a colon. */
  function WsURLJoined(c: Client, path: string, parse: UrlParser): (r: Result<Endpoint, string>)
    ensures c.wsUrl != "" ==> r == WsURL(c, path, parse)
    ensures c.wsUrl == "" ==> (r.Ok? <==> WsURL(c, path, parse).Ok?)
    ensures c.wsUrl == "" && r.Err? ==> r == WsURL(c, path, parse)
    ensures c.wsUrl == "" && r.Ok? ==>
      var api := parse(c.apiHost).value;
      r.value == WsURL(c, path, parse).value.(host := JoinHostPort(ChannelHost(api.hostname, c.wsHost), Itoa(ChannelPort(c.wsPort))))
  {
    if c.wsUrl != "" then WsURL(c, path, parse)
    else match WsURL(c, path, parse)
      case Err(e) => Err(e)
      case Ok(e) =>
        var api := parse(c.apiHost).value;
        Ok(e.(host := JoinHostPort(ChannelHost(api.hostname, c.wsHost), Itoa(ChannelPort(c.wsPort)))))
  }

  /** With the host joined, the default endpoint splits back into the API
      host name and port 51821 for every bracket-free host name, IPv6
      literals included. */
  lemma JoinedEndpointSplits(c: Client, path: string, parse: UrlParser)
    requires c.wsUrl == "" && c.wsHost == "" && c.wsPort <= 0
    requires parse(c.apiHost).Ok?
    requires var h := parse(c.apiHost).value.hostname;
      h != "" && '[' !in h && ']' !in h
    ensures var r := WsURLJoined(c, path, parse);
      r.Ok? && SplitHostPort(r.value.host) == Some((parse(c.apiHost).value.hostname, "51821"))
  {
    ItoaHasNoDelimiters(DefaultWsPort);
    assert Itoa(DefaultWsPort) == "51821";
    SplitJoinHostPort(parse(c.apiHost).value.hostname, "51821");
  }

  // ---------------------------------------------------------------------
  // The channel request (doWS)
  // ---------------------------------------------------------------------

  /** How one channel attempt's steps turn out: the dial (made only when no
      connection is open), the write of the request and the read of the
      reply. */
  datatype TryEnv = TryEnv(dialErr: Option<string>, writeErr: Option<string>, read: Result<seq<Byte>, string>)

  /** After one attempt: whether a connection is open, the reply payload or
      the error, whether it dialled and whether it wrote the request. */
  datatype Tried = Tried(connected: bool, payload: Result<seq<Byte>, string>, dialed: bool, wrote: bool)

  /** One attempt (`tryOnce`): open a connection if there is none, write the
      request, read the reply. A failed write or read closes the
      connection. */
  function TryOnce(connected: bool, url: Result<Endpoint, string>, e: TryEnv): (r: Tried)
    ensures r.payload.Ok? <==> r.connected
    ensures r.dialed <==> !connected && url.Ok?
    ensures r.payload.Ok? ==> r.wrote && e.read.Ok? && r.payload.value == e.read.value
    ensures r.wrote <==> (connected || (url.Ok? && e.dialErr.None?))
    ensures !connected && url.Err? ==> r.payload == Err(url.error)
    ensures !connected && url.Ok? && e.dialErr.Some? ==> r.payload == Err(e.dialErr.value)
    ensures r.wrote && e.writeErr.Some? ==> r.payload == Err(e.writeErr.value)
    ensures r.wrote && e.writeErr.None? ==> r.payload == e.read
  {
    if !connected && url.Err? then Tried(false, Err(url.error), false, false)
    else if !connected && e.dialErr.Some? then Tried(false, Err(e.dialErr.value), true, false)
    else
      var dialed := !connected;
      if e.writeErr.Some? then Tried(false, Err(e.writeErr.value), dialed, true)
      else match e.read
        case Err(err) => Tried(false, Err(err), dialed, true)
        case Ok(p) => Tried(true, Ok(p), dialed, true)
  }

  /** After `doWS`: whether a connection is left open, the decoded reply or
      the error, the requests written and, per attempt, whether it
      dialled. */
  datatype WsDone = WsDone(connected: bool, resp: Result<WsResponse, string>, sent: seq<WsRequest>, dials: seq<bool>)

  /** `doWS`: one attempt, and one more when it fails; then decode the
      reply. A reply that does not decode is an error but keeps the
      connection. */
  function DoWS(connected: bool, req: WsRequest, url: Result<Endpoint, string>,
                first: TryEnv, second: TryEnv, decode: seq<Byte> -> Option<WsResponse>): (r: WsDone)
    ensures 1 <= |r.dials| <= 2 && |r.sent| <= |r.dials|
    ensures forall i :: 0 <= i < |r.sent| ==> r.sent[i] == req
    ensures r.dials[0] <==> !connected && url.Ok?
    ensures |r.dials| == 2 <==> TryOnce(connected, url, first).payload.Err?
    ensures |r.dials| == 2 ==> (r.dials[1] <==> url.Ok?)
    ensures r.resp.Ok? ==> r.connected
    ensures r.connected && r.resp.Err? ==> |r.sent| > 0
    ensures var t1 := TryOnce(connected, url, first);
      t1.payload.Ok? ==>
        && (r.resp.Ok? <==> decode(t1.payload.value).Some?)
        && (r.resp.Ok? ==> r.resp.value == decode(t1.payload.value).value)
    ensures var t1 := TryOnce(connected, url, first);
      var t2 := TryOnce(false, url, second);
      t1.payload.Err? ==>
        && (r.resp.Ok? <==> t2.payload.Ok? && decode(t2.payload.value).Some?)
        && (r.resp.Ok? ==> r.resp.value == decode(t2.payload.value).value)
        && (t2.payload.Err? ==> r.resp == Err(t2.payload.error) && !r.connected)
    ensures r.connected && r.resp.Err? ==> r.resp == Err("invalid channel reply")
  {
    var t1 := TryOnce(connected, url, first);
    var sent1 := if t1.wrote then [req] else [];
    if t1.payload.Ok? then
      Decoded(t1.payload.value, decode, sent1, [t1.dialed])
    else
      var t2 := TryOnce(t1.connected, url, second);
      var sent2 := sent1 + (if t2.wrote then [req] else []);
      match t2.payload
      case Err(e) => WsDone(false, Err(e), sent2, [t1.dialed, t2.dialed])
      case Ok(p) => Decoded(p, decode, sent2, [t1.dialed, t2.dialed])
  }

  /** The end of `doWS` once a reply payload has been read. */
  function Decoded(p: seq<Byte>, decode: seq<Byte> -> Option<WsResponse>, sent: seq<WsRequest>, dials: seq<bool>): (r: WsDone)
    ensures r.connected && r.sent == sent && r.dials == dials
    ensures r.resp.Ok? <==> decode(p).Some?
    ensures r.resp.Ok? ==> r.resp.value == decode(p).value
  {
    match decode(p)
    case None => WsDone(true, Err("invalid channel reply"), sent, dials)
    case Some(resp) => WsDone(true, Ok(resp), sent, dials)
  }

  /** An open connection is reused: when the first attempt succeeds on it,
      nothing is dialled and the request is written once. */
  lemma OpenConnectionReused(req: WsRequest, url: Result<Endpoint, string>, first: TryEnv, second: TryEnv,
                             decode: seq<Byte> -> Option<WsResponse>)
    requires first.writeErr.None? && first.read.Ok?
    ensures var r := DoWS(true, req, url, first, second, decode);
      r.dials == [false] && r.sent == [req] && r.connected
  {
  }

  /** A failed first attempt always leads to a redial: the retry reconnects
      whenever the endpoint is known, even if a connection was open. */
  lemma RetryReconnects(req: WsRequest, url: Result<Endpoint, string>, first: TryEnv, second: TryEnv,
                        decode: seq<Byte> -> Option<WsResponse>)
    requires url.Ok?
    requires first.writeErr.Some?
    ensures var r := DoWS(true, req, url, first, second, decode);
      && r.dials == [false, true]
      && (second.dialErr.None? ==> r.sent == [req, req])
      && (second.dialErr.Some? ==> r.sent == [req] && !r.connected && r.resp.Err?)
  {
  }

  // ---------------------------------------------------------------------
  // Choosing the transport (doRequest)
  // ---------------------------------------------------------------------

  /** What the HTTP client returned: an error, no response, or a reply with
      its header lines as received. */
  datatype HttpOutcome =
    | HttpFailed(reason: string)
    | NilResponse
    | HttpReply(status: int, headerLines: seq<(string, string)>, body: seq<Byte>)

  datatype HttpRequest = HttpRequest(verb: string, path: string, headers: map<string, string>, body: seq<Byte>)

  /** The result of `doRequest`: status, reply headers, body, whether the
      channel carried it, and the error. */
  datatype Exchange = Exchange(
    status: int,
    headers: Option<map<string, seq<string>>>,
    body: seq<Byte>,
    usedWS: bool,
    err: Option<string>)

  /** Everything outside the client that one request depends on: the time
      the breaker is consulted, the time a channel attempt ends, the URL
      parser, the two channel attempts, the reply decoder and the HTTP
      outcome. */
  datatype Env = Env(
    nowNs: int,
    doneNs: int,
    parse: UrlParser,
    first: TryEnv,
    second: TryEnv,
    decode: seq<Byte> -> Option<WsResponse>,
    http: HttpOutcome)

  /** The client after a request, the exchange, whether the channel was
      tried, what it was sent, and the HTTP request made, if any. */
  datatype Transported = Transported(c: Client, x: Exchange, triedWS: bool, wsSent: seq<WsRequest>, httpSent: Option<HttpRequest>)

  predicate IsGetOrPost(verb: string) {
    ToUpper(verb) == "GET" || ToUpper(verb) == "POST"
  }

  /** The HTTP half of `doRequest`. */
  function Fallback(c: Client, verb: string, path: string, headers: map<string, string>, body: seq<Byte>,
                    http: HttpOutcome, tried: bool, wsSent: seq<WsRequest>): (r: Transported)
    ensures r.c == c && r.triedWS == tried && r.wsSent == wsSent && !r.x.usedWS
    ensures r.httpSent.Some? <==> IsGetOrPost(verb)
    ensures r.httpSent.Some? ==> r.httpSent.value == HttpRequest(ToUpper(verb), path, headers, body)
    ensures !IsGetOrPost(verb) ==> r.x == Exchange(0, None, [], false, Some("unsupported method: " + verb))
    ensures r.x.err.None? <==> IsGetOrPost(verb) && http.HttpReply?
    ensures r.x.err.Some? ==> r.x.status == 0 && r.x.headers.None?
    ensures r.x.err.None? ==>
      r.x.status == http.status && r.x.body == http.body && r.x.headers == Some(HeaderMap(http.headerLines))
    ensures IsGetOrPost(verb) && http.HttpFailed? ==> r.x == Exchange(0, None, [], false, Some(http.reason))
    ensures IsGetOrPost(verb) && http.NilResponse? ==> r.x == Exchange(0, None, [], false, Some("received nil response"))
  {
    if !IsGetOrPost(verb) then
      Transported(c, Exchange(0, None, [], false, Some("unsupported method: " + verb)), tried, wsSent, None)
    else
      var sent := Some(HttpRequest(ToUpper(verb), path, headers, body));
      match http
      case HttpFailed(e) => Transported(c, Exchange(0, None, [], false, Some(e)), tried, wsSent, sent)
      case NilResponse => Transported(c, Exchange(0, None, [], false, Some("received nil response")), tried, wsSent, sent)
      case HttpReply(status, lines, b) => Transported(c, Exchange(status, Some(HeaderMap(lines)), b, false, None), tried, wsSent, sent)
  }

  /** `doRequest`: the channel while the breaker allows it, marking it
      Available on success and Unavailable on failure; the HTTP fallback
      otherwise and after a channel failure. A channel reply that does not
      decode counts as a failure but leaves the connection open. */
  function DoRequest(c: Client, verb: string, path: string, headers: map<string, string>, body: seq<Byte>, env: Env): (r: Transported)
    ensures r.triedWS <==> Enabled(c.breaker, env.nowNs).enabled
    ensures r.c.(breaker := c.breaker, connected := c.connected) == c
    ensures !r.triedWS ==> r.c == c && |r.wsSent| == 0
    ensures r.x.usedWS ==> r.triedWS && r.x.err.None? && r.c.breaker.state == Available && r.httpSent.None?
    ensures r.triedWS && !r.x.usedWS ==> r.c.breaker == Breaker(Unavailable, env.doneNs)
    ensures r.triedWS && !r.x.usedWS && r.c.connected ==> |r.wsSent| > 0
    ensures !r.x.usedWS ==> (r.httpSent.Some? <==> IsGetOrPost(verb))
    ensures !r.x.usedWS && !IsGetOrPost(verb) ==> r.x == Exchange(0, None, [], false, Some("unsupported method: " + verb))
    ensures |r.wsSent| <= 2 && forall i :: 0 <= i < |r.wsSent| ==> r.wsSent[i] == ToWsRequest(verb, path, headers, body)
    ensures r.httpSent.Some? ==> r.httpSent.value.headers == headers && r.httpSent.value.body == body
    ensures var chk := Enabled(c.breaker, env.nowNs);
      var d := DoWS(c.connected, ToWsRequest(verb, path, headers, body), WsURL(c.(breaker := chk.next), path, env.parse),
                    env.first, env.second, env.decode);
      chk.enabled ==>
        && (r.x.usedWS <==> d.resp.Ok?)
        && (d.resp.Ok? ==> r.x == Exchange(d.resp.value.status, d.resp.value.headers, d.resp.value.body, true, None))
    ensures !r.x.usedWS && IsGetOrPost(verb) && env.http.HttpReply? ==>
      r.x == Exchange(env.http.status, Some(HeaderMap(env.http.headerLines)), env.http.body, false, None)
    ensures !r.x.usedWS && IsGetOrPost(verb) && env.http.HttpFailed? ==>
      r.x == Exchange(0, None, [], false, Some(env.http.reason))
    ensures !r.x.usedWS && IsGetOrPost(verb) && env.http.NilResponse? ==>
      r.x == Exchange(0, None, [], false, Some("received nil response"))
  {
    var chk := Enabled(c.breaker, env.nowNs);
    var c1 := c.(breaker := chk.next);
    if chk.enabled then
      var req := ToWsRequest(verb, path, headers, body);
      var d := DoWS(c1.connected, req, WsURL(c1, path, env.parse), env.first, env.second, env.decode);
      match d.resp
      case Ok(resp) =>
        var c2 := c1.(breaker := SetState(c1.breaker, Available, env.doneNs), connected := d.connected);
        Transported(c2, Exchange(resp.status, resp.headers, resp.body, true, None), true, d.sent, None)
      case Err(_) =>
        var c2 := c1.(breaker := SetState(c1.breaker, Unavailable, env.doneNs), connected := d.connected);
        Fallback(c2, verb, path, headers, body, env.http, true, d.sent)
    else
      Fallback(c1, verb, path, headers, body, env.http, false, [])
  }

  /** Replies that come over HTTP carry canonical header names, so none is
      filed under "ETag". */
  lemma FallbackHeadersCanonical(c: Client, verb: string, path: string, headers: map<string, string>, body: seq<Byte>, env: Env)
    requires !DoRequest(c, verb, path, headers, body, env).x.usedWS
    ensures var x := DoRequest(c, verb, path, headers, body, env).x;
      x.headers.Some? ==> "ETag" !in x.headers.value
  {
    if env.http.HttpReply? {
      HeaderMapHasNoETag(env.http.headerLines);
    }
  }

  /** After a channel failure that ends at `failNs`, requests within the
      next 60 seconds go straight to HTTP and leave the breaker alone; the
      first request from then on tries the channel again. */
  lemma FailureCoolsDown(c: Client, verb: string, path: string, headers: map<string, string>, body: seq<Byte>,
                         env: Env, later: Env)
    requires DoRequest(c, verb, path, headers, body, env).triedWS
    requires !DoRequest(c, verb, path, headers, body, env).x.usedWS
    requires env.doneNs > 0
    ensures var c' := DoRequest(c, verb, path, headers, body, env).c;
      var r := DoRequest(c', verb, path, headers, body, later);
      && (later.nowNs < env.doneNs + CooldownNs ==> !r.triedWS && r.c == c')
      && (later.nowNs >= env.doneNs + CooldownNs ==> r.triedWS)
  {
  }

  /** A channel reply that does not decode marks the channel Unavailable
      and falls back to HTTP, but keeps the open connection for later
      requests. */
  lemma MalformedReplyKeepsConnection(c: Client, verb: string, path: string, headers: map<string, string>, body: seq<Byte>, env: Env)
    requires c.breaker.state != Unavailable && c.connected
    requires env.first.writeErr.None? && env.first.read.Ok? && env.decode(env.first.read.value).None?
    ensures var r := DoRequest(c, verb, path, headers, body, env);
      && r.c.connected && r.c.breaker == Breaker(Unavailable, env.doneNs)
      && !r.x.usedWS && |r.wsSent| == 1
  {
  }

  // ---------------------------------------------------------------------
  // Classifying the outcome (checkResponseRaw)
  // ---------------------------------------------------------------------

  datatype CheckError =
    | RequestFailed(path: string, reason: string)
    | StatusError(path: string, status: int, body: seq<Byte>)

  /** `checkResponseRaw`: a transport error, or else a status of 400 or
      more, is an error naming the path. */
  function CheckResponseRaw(path: string, status: int, body: seq<Byte>, err: Option<string>): (r: Option<CheckError>)
    ensures r.None? <==> err.None? && status < 400
    ensures err.Some? ==> r == Some(RequestFailed(path, err.value))
    ensures err.None? && r.Some? ==> r.value == StatusError(path, status, body)
  {
    if err.Some? then Some(RequestFailed(path, err.value))
    else if status >= 400 then Some(StatusError(path, status, body))
    else None
  }

  /** An unsupported method always fails the check. */
  lemma UnsupportedMethodFails(c: Client, verb: string, path: string, headers: map<string, string>, body: seq<Byte>, env: Env)
    requires !IsGetOrPost(verb)
    requires !DoRequest(c, verb, path, headers, body, env).x.usedWS
    ensures var x := DoRequest(c, verb, path, headers, body, env).x;
      CheckResponseRaw(path, x.status, x.body, x.err) == Some(RequestFailed(path, "unsupported method: " + verb))
  {
  }

  // ---------------------------------------------------------------------
  // Sequences of requests
  // ---------------------------------------------------------------------

  /** One request of a sequence, with its environment. */
  datatype Call = Call(verb: string, path: string, headers: map<string, string>, body: seq<Byte>, env: Env)

  datatype Run = Run(c: Client, exchanges: seq<Exchange>, tried: seq<bool>)

  /** Carries the requests of `calls` in order, each on the client the
      previous one left. */
  function RunCalls(c: Client, calls: seq<Call>): (r: Run)
    ensures |r.exchanges| == |calls| && |r.tried| == |calls|
    decreases |calls|
  {
    if |calls| == 0 then Run(c, [], [])
    else
      var k := calls[0];
      var t := DoRequest(c, k.verb, k.path, k.headers, k.body, k.env);
      var rest := RunCalls(t.c, calls[1..]);
      Run(rest.c, [t.x] + rest.exchanges, [t.triedWS] + rest.tried)
  }

  /** A channel switched off with no failure time on record is never tried
      again: every later request goes over HTTP and the client is left as
      it was. */
  lemma {:induction false} DisabledChannelNeverTried(c: Client, calls: seq<Call>)
    requires c.breaker.state == Unavailable && c.breaker.lastFailNs <= 0
    ensures var r := RunCalls(c, calls);
      && r.c == c
      && (forall i :: 0 <= i < |calls| ==> !r.tried[i] && !r.exchanges[i].usedWS)
    decreases |calls|
  {
    if |calls| > 0 {
      var k := calls[0];
      DisabledStep(c, k);
      DisabledChannelNeverTried(c, calls[1..]);
      var r := RunCalls(c, calls);
      forall i | 0 <= i < |calls|
        ensures !r.tried[i] && !r.exchanges[i].usedWS
      {
        if i > 0 {
          assert r.tried[i] == RunCalls(c, calls[1..]).tried[i - 1];
          assert r.exchanges[i] == RunCalls(c, calls[1..]).exchanges[i - 1];
        }
      }
    }
  }

  /** One request on a channel switched off for good leaves the client as
      it was and goes over HTTP. */
  lemma DisabledStep(c: Client, k: Call)
    requires c.breaker.state == Unavailable && c.breaker.lastFailNs <= 0
    ensures var t := DoRequest(c, k.verb, k.path, k.headers, k.body, k.env);
      t.c == c && !t.triedWS && !t.x.usedWS
  {
  }

  /** Right after `disableWS`, a client whose channel never failed carries
      every request over HTTP. */
  lemma DisableWSIsPermanent(c: Client, calls: seq<Call>)
    requires c.breaker.lastFailNs <= 0
    ensures var r := RunCalls(DisableWS(c), calls);
      forall i :: 0 <= i < |calls| ==> !r.exchanges[i].usedWS
  {
    DisabledChannelNeverTried(DisableWS(c), calls);
  }
}
